=== FILE: README.md ===
# Twitter archive to Obsidian notes: a Dafny model

The importer in `main.py` reads a Twitter data export. It takes the archive file the
configuration's `json_file` names (the export's `tweets.js`), removes the `window.YTD.tweets.part0 = ` header and parses the JSON array behind it. For
every tweet it writes one Markdown note. The note's name is the sanitised tweet id. Its
content is a YAML front-matter block followed by body lines, and a configuration switches
its sections on and off. Next to that renderer the file holds date helpers:
- `format_date` shows an ISO timestamp as `YYYY-MM-DD`;
- `generate_daily_note_link` builds the path of a daily-journal note;
- `format_string` and `format_bool` are two small display helpers.

This project models these pure parts as Dafny functions over strings. It proves what each
one does. Python exceptions become a `Result` whose error names the exception.

| module (file) | models |
|---|---|
| `Results` (results.dfy) | `Option`, and `Result` with the Python exceptions `ValueError`, `NameError` and `TypeError` |
| `Chars` (chars.dfy) | ASCII character classes, `upper`/`lower`, decimal digit strings, zero padding, `str(int)` |
| `Calendar` (calendar.dfy) | Python's proleptic Gregorian `date`: validity, ordinals, `weekday()`, `%B`, `%A` and `%Y-%m-%d` |
| `Strptime` (strptime.dfy) | `datetime.strptime(s, '%Y-%m-%d')`, with CPython's regular-expression directives |
| `DailyNote` (daily_note.dfy) | `generate_daily_note_link` |
| `IsoDates` (iso_dates.dfy) | `format_date`, with the `Z` rewrite and a stated subset of `fromisoformat` |
| `Values` (values.dfy) | JSON scalars in a tweet, `dict.get`, truthiness and `str()` |
| `Text` (text.dfy) | `str.split`, `str.join`, `str.capitalize`, `format_string`, `format_bool` |
| `Markdown` (markdown.dfy) | `create_markdown` as written, and the evidently intended version |
| `FileNames` (file_names.dfy) | `sanitize_filename`, the `<id>.md` name, and `os.path.join` into the output directory |
| `Strip` (strip.dfy) | `str.strip(chars)` and the archive header strip |

A few modelling notes:
- The global `properties` mapping of the configuration becomes a `Toggles` record. It holds
  the truthiness of the two keys `create_markdown` reads.
- A tweet is a `map<string, Value>` of JSON scalars.
- The weekday is `(ordinal + 6) % 7`. Two lemmas pin it down as the true weekday:
  - `Calendar.FirstDayIsMonday` says 0001-01-01 is a Monday;
  - `Calendar.WeekdayAdvances` says it moves by one from each day to the next.

## Model

| member | source | states |
|---|---|---|
| `Strptime.ParseYmd` | main.py:32 | A parse succeeds only with a valid calendar date; every failure is a `ValueError` (no match, unconverted data, or a day that does not exist) |
| `Strptime.ParseSound` | main.py:32 | Every accepted text is a `%Y-%m-%d` spelling of the date returned: four-digit year, month and day zero-padded or as a single digit, the day possibly space-padded |
| `Strptime.ParseComplete` | main.py:32 | Every such spelling of a valid date is accepted and read as exactly that date |
| `Strptime.ParseIsoDate` | main.py:32 | The `YYYY-MM-DD` rendering of a valid date parses back to the date |
| `Strptime.ParsePadded` | main.py:32 | For zero-padded fields in range, any text after the day raises "unconverted data remains"; otherwise the result is the date if it exists and "out of range" if it does not |
| `DailyNote.DailyNoteLink` | main.py:31-39 | The link fails exactly when the `strptime` step fails, with the same `ValueError`; there is no fallback |
| `DailyNote.LinkOfCanonicalDate` | main.py:31-39 | For valid `YYYY-MM-DD` text the link is `/DailyNotes/` + the year + `/` + the month digits + `-` + the English month name + `/` + the text itself + `-` + the weekday name + `.md` |
| `DailyNote.LinkIgnoresSpelling` | main.py:32-39 | Every accepted spelling of a date yields the link of its zero-padded form |
| `DailyNote.LinkDefinedExactlyOnDates` | main.py:32 | A link exists if and only if the text spells a valid calendar date |
| `DailyNote.LinkRejectsNonDateText` | main.py:32 | The empty string and the archive's `created_at` form fail with "does not match format" |
| `DailyNote.LinkRejectsMonth13` | main.py:32 | `2023-13-01` fails to match: `%m` reads only the `1` |
| `DailyNote.LinkRejectsImpossibleDates` | main.py:32 | Zero-padded fields in range that name no calendar date match the format but raise as out of range |
| `DailyNote.LinkRejectsLeapDayOfCommonYear` | main.py:32 | `2023-02-29` raises as out of range |
| `DailyNote.LinkRejectsYearZero` | main.py:32 | `0000-01-01` raises as out of range: there is no year 0 |
| `DailyNote.LinkRejectsTrailingText` | main.py:32 | Any text after a valid zero-padded date raises "unconverted data remains" |
| `DailyNote.LinkRejectsDay32` | main.py:32 | `2024-01-32` raises "unconverted data remains": `%d` reads only the `3` |
| `DailyNote.LinkOfLeapDay` | main.py:31-39 | `2024-02-29` links to `/DailyNotes/2024/02-February/2024-02-29-Thursday.md` |
| `DailyNote.LinkPadsShortFields` | main.py:31-39 | `2024-1-5` and `2024-01- 5` both link to the zero-padded note of Friday 5 January 2024 |
| `Calendar.NextDayIsNextOrdinal` | main.py:38 | Day ordinals have no gaps: the next calendar day has the next ordinal |
| `Calendar.WeekdayAdvances` | main.py:38 | The weekday advances by one, modulo 7, from each day to the next |
| `Calendar.FirstDayIsMonday` | main.py:38 | 0001-01-01 has ordinal 1 and is a Monday, which anchors the weekday count |
| `Calendar.DateTextRoundTrip` | main.py:37 | Rendering a valid date as `YYYY-MM-DD` and reading the fields back gives the date |
| `Calendar.TextDateRoundTrip` | main.py:37 | Reading valid `YYYY-MM-DD` text and rendering it gives the same text |
| `Chars.Pad2OfDigits` | main.py:35 | Two-digit `%m`/`%d` padding is the inverse of reading two digits |
| `Chars.Pad4OfDigits` | main.py:34 | Four-digit `%Y` padding is the inverse of reading four digits |
| `Chars.NatToString` | main.py:64 | `str(n)` is a non-empty digit string that reads back as `n` and has no leading zero unless it is `0` itself |
| `Chars.NatToStringUnique` | main.py:64 | Conversely, every digit string without a leading zero is `str` of its value, so `str(n)` is the one such spelling |
| `IsoDates.ReplaceZRemovesZ` | main.py:25 | After `replace("Z", "+00:00")` no `Z` is left; text without `Z` is unchanged |
| `IsoDates.ReplaceZAppend` | main.py:25 | The rewrite works piece by piece: rewriting a concatenation is concatenating the rewritten parts |
| `IsoDates.ReplaceZPrefix` | main.py:25 | The rewrite keeps a `Z`-free prefix in place and turns a `Z` within a prefix into a `+` within the same length |
| `IsoDates.FormatDate` | main.py:23-28 | An accepted input gives its first ten characters, which form a valid `YYYY-MM-DD`; a refused input is returned unchanged, as the `ValueError` handler does |
| `IsoDates.FormatDateKeepsCanonicalDate` | main.py:23-28 | Valid `YYYY-MM-DD` text is a fixpoint |
| `IsoDates.FormatDateIdempotent` | main.py:23-28 | Formatting twice is formatting once |
| `IsoDates.FormatDateDropsTime` | main.py:25-26 | A valid date followed by an accepted time shows the date as written |
| `IsoDates.ClockTextAccepted` | main.py:25 | Every `hh:mm:ss±hh:mm` in range is accepted after the date, whatever single character separates the two |
| `IsoDates.FormatDateIgnoresOffset` | main.py:25-26 | With any offset the date as written is shown; the offset is not applied |
| `IsoDates.FormatDateOfZuluTime` | main.py:25-26 | A time ending in `Z` is read as `+00:00` and shows the date as written |
| `IsoDates.FormatDateOfMillisecondUtc` | main.py:25-26 | JavaScript's `toISOString` form `YYYY-MM-DDThh:mm:ss.fffZ` shows its date as written |
| `IsoDates.FormatDateKeepsNonDigitStart` | main.py:27-28 | Text that does not start with a digit is returned unchanged |
| `IsoDates.ArchiveTimestampKept` | main.py:27-28 | The archive's `created_at` form `Wed Oct 10 20:19:24 +0000 2018` is returned unchanged |
| `IsoDates.FormatDateKeepsImpossibleDate` | main.py:25-28 | `DDDD-DD-DD` text that names no calendar date is returned unchanged, whatever follows it |
| `IsoDates.LeapDayOfCommonYearKept` | main.py:25-28 | `2023-02-29` is returned unchanged |
| `Text.Split` | main.py:43 | `split('_')` never gives an empty list |
| `Text.SplitPiecesHoldNoSeparator` | main.py:43 | No piece of `split('_')` holds `_` |
| `Text.SplitThenJoin` | main.py:43 | Joining the pieces of `split('_')` with `_` restores the input |
| `Text.SplitJoin` | main.py:43 | Splitting pieces joined by a separator none of them holds gives the pieces back |
| `Text.FormatStringPointwise` | main.py:42-43 | `format_string` keeps the length; position by position `_` becomes a space, a word's first letter is upper case and the rest lower case |
| `Text.FormatStringNoUnderscore` | main.py:42-43 | The result holds no `_` |
| `Text.FormatStringNotIdempotent` | main.py:42-43 | `a_b` gives `A B`, which gives `A b`: the function is not idempotent |
| `Text.FormatBool` | main.py:46-47 | The result is a check mark or a cross, and a check mark exactly for a truthy value |
| `Text.FormatBoolOfScalars` | main.py:47 | Truthiness decides the mark: `"False"` shows a check mark, while `0`, `None` and `""` show a cross |
| `Markdown.CreateMarkdown` | main.py:51-151 | The renderer fails if and only if the `retweeted` section is on, and the failure is a `NameError` for `retweeted` |
| `Markdown.NoTogglesGivesEnvelope` | main.py:147-151 | With no section on, every tweet renders as exactly `---\n\ntags:\n - Twitter\n---\n\n` |
| `Markdown.ReplySection` | main.py:61-65 | The reply section gives the note of `ReplyNote`: exactly the front-matter line `Replying to: "<n>"` and the body line `**Replying to:** [<n>]`; `<n>` is the `reply_to_screen_name` entry, or `Unknown user name` when it is missing |
| `Markdown.OnlyReplyNameMatters` | main.py:61-65 | Two tweets with the same `reply_to_screen_name` entry get the same note; the reply-to user id is read but never used |
| `Markdown.ArchiveReplyNameIgnored` | main.py:63 | A tweet naming its reply target under `in_reply_to_screen_name` is shown as a reply to `Unknown user name` |
| `Markdown.IntendedAgreesWhereSourceWorks` | main.py:56-65 | Where the source does not fail and both name keys agree, the corrected note equals the note the source writes |
| `Markdown.IntendedReplySection` | main.py:61-65 | With only the reply section on, the corrected note names the `in_reply_to_screen_name` entry, or `Unknown user name` when it is missing |
| `Markdown.IntendedShowsRetweeted` | main.py:56-59 | The corrected note shows `retweeted: <value>` in the front matter and `**Retweeted:** <mark>` in the body |
| `Markdown.RetweetDiscrepancy` | main.py:56-59 | For a retweet the source raises `NameError`, while the corrected note reads `retweeted: True` and shows a check mark |
| `Markdown.ReplyNameDiscrepancy` | main.py:63 | For a reply named under `in_reply_to_screen_name`, the source and the corrected note differ |
| `FileNames.KeepSafeSpec` | main.py:20 | The filter keeps only alphanumerics and ` ._-`, keeps them in order, and leaves such text unchanged |
| `FileNames.KeepSafeConcat` | main.py:20 | The filter works character by character: it distributes over concatenation, keeps a safe character and drops any other |
| `FileNames.SanitizeFilename` | main.py:19-20 | The result holds only alphanumerics and ` ._-`, so no `/`. It is a subsequence of the input, does not end in a space, and is the filtered text minus its trailing spaces |
| `FileNames.SanitizeIdempotent` | main.py:19-20 | Sanitising twice is sanitising once |
| `FileNames.SanitizeFixpoints` | main.py:19-20 | A name is left unchanged exactly when it holds only kept characters and does not end in whitespace |
| `FileNames.SanitizeDropsUnsafe` | main.py:20 | Deleting an unsafe character beforehand does not change the result |
| `FileNames.OutputFileName` | main.py:189-190 | A string id gives the sanitised id plus `.md`, a missing id the sanitised `Unknown tweet` plus `.md`, and an id that is not a string raises `TypeError`; every name ends in `.md` and holds no `/` |
| `FileNames.MissingIdName` | main.py:189 | A tweet without an id is written to `Unknown tweet.md` |
| `FileNames.IdsCollide` | main.py:189-190 | The ids `1/2` and `12` are both written to `12.md`, so the later note overwrites the earlier one |
| `FileNames.JoinPathInDirectory` | main.py:190 | On POSIX, joining a directory with a name without `/` yields the directory, a `/` where it does not already end in one, and the name; so the name is the last component |
| `FileNames.OutputPath` | main.py:189-190 | Each note is written directly inside the output directory: on POSIX the path is the directory, a `/` where one is missing, and the file name. The path fails exactly when the name fails |
| `Strip.LStripSpec` | main.py:181 | The leading run of set characters is removed: what is left is a suffix that does not start with one |
| `Strip.RStripSpec` | main.py:181 | The trailing run of set characters is removed: what is left is a prefix that does not end with one |
| `Strip.StripBounds` | main.py:181 | The strip keeps a contiguous part of the text: everything before and after it is in the set, and its first and last characters are not |
| `Strip.StripUnique` | main.py:181 | Any such contiguous part is the result, so the characterisation is exact |
| `Strip.StripIdempotent` | main.py:181 | Stripping twice is stripping once |
| `Strip.HeaderCharsAreHeader` | main.py:181 | The argument `window.YTD.tweets.part0 = `, read as a character set, is exactly eighteen characters: the seventeen `w i n d o . Y T D t e s p a r 0 =` and the space |
| `Strip.StripArchiveHeader` | main.py:181 | Header characters followed by a JSON body that starts and ends outside the set strip to exactly the body |
| `Strip.StripTakesTrailingDigit` | main.py:181 | It strips a set of characters, not a prefix: a body ending in `0` loses that `0` |
| `Strip.StripHeaderCharsOnly` | main.py:181 | Text made only of header characters, in any order, strips to nothing |

## Left out

- Configuration loading (main.py:7-13): YAML file I/O. The two toggles `create_markdown` reads are a parameter instead.
- The truthiness of a toggle's configuration value: the `Toggles` record holds the resulting booleans.
- Directory creation, reading the archive, `json.loads`, writing the notes and the progress `print`s (main.py:16, 179-200). These are I/O and library calls.
  - Of the driver loop, the model keeps the header strip (line 181) and the path derivation (lines 189-190).
  - The loop itself, and `tweet_array.get('tweet')` on line 187, are not modelled.
- `amend_markdown` (main.py:154-175): its only call is commented out.
- The commented-out sections (main.py:67-144, 192-195): they do not run.
- Unicode. Character classes, `isalnum`, `isspace`, `capitalize` (title case of the first letter), `lower` and `\d` are restricted to ASCII.
- `Calendar.IsoDate`, `DailyNote.DailyNoteLink`, `IsoDates.FormatDate` and `IsoDates.FormatDateKeepsCanonicalDate`: `%Y` is rendered zero-padded to four digits (main.py:26, 34, 37). Some C libraries print years below 1000 with fewer digits; there `0999-01-01` would format to `999-01-01` and the link's year folder would be `999`.
- `IsoDates.FormatDate`: accepts only this subset of `fromisoformat`:
  - a `YYYY-MM-DD` date, optionally followed by any one separator character;
  - then `hh`, `hh:mm`, `hh:mm:ss`, or `hh:mm:ss` with three or six fraction digits;
  - then optionally an offset `±hh:mm`, `±hh:mm:ss` or `±hh:mm:ss.ffffff`, with the offset's hour below 24 and its minute and second below 60.

  Python 3.7 and later accept all of these. Python accepts more, and how much more depends on the version. Python 3.11 adds the basic format, week dates, a comma as decimal mark and fractions of other lengths. Some versions also accept irregular forms outside this grammar. The model refuses all of those and returns them unchanged where Python would format them.
- Month and weekday names are the C-locale English names. Other locales change `%B` and `%A`.
- `Values.Value` holds the JSON scalars only. A tweet entry that is a list or an object, and printing a float, are not modelled.
- `Markdown.CreateMarkdown` models the `retweeted` branch as the `NameError` it raises. The unused variable `name` and the unused `reply_to_id` (lines 57 and 62) have no effect and are not modelled.
- `FileNames.JoinPath`, `FileNames.JoinPathInDirectory` and `FileNames.OutputPath`: `os.path.join` (main.py:190) is modelled as the POSIX join. On Windows the separator is `\` and a drive such as `C:` changes the result; neither is modelled.
- `main.py` writes every note flat into the output directory as `<id>.md` (main.py:190). It renders neither `created_at` nor `full_text`, filters no retweets and writes no per-user files, so the model has none of these either.

## Findings

| source | as written | input that shows it | evidently intended | confidence | as-written member | corrected member |
|---|---|---|---|---|---|---|
| main.py:56-59 | The value is bound to `name`, but the f-strings use the unbound `retweeted` | any tweet with the `retweeted` toggle on raises `NameError` | `retweeted = tweet.get('retweeted', False)`, giving `retweeted: <value>` and `**Retweeted:** <mark>` | high, not executed | `Markdown.RetweetDiscrepancy` | `Markdown.IntendedShowsRetweeted` |
| main.py:63 | The reply name is read from `reply_to_screen_name` | `{"in_reply_to_screen_name": "alice"}` with the reply toggle on shows `Unknown user name` | read `in_reply_to_screen_name`, the key of the archive's tweet objects | medium, not executed | `Markdown.ReplyNameDiscrepancy` | `Markdown.IntendedReplySection` |

`Markdown.CreateMarkdown` models the code as written. `Markdown.CreateMarkdownIntended` is the corrected renderer. It never fails, and the lemmas above relate it to the original.

=== FILE: calendar.dfy ===
/** The proleptic Gregorian calendar of Python's `datetime.date`: validity, day ordinals,
    weekdays, the English (C locale) month and weekday names `%B` and `%A` print, and the
    `YYYY-MM-DD` text form `%Y-%m-%d` prints.
 */
module Calendar {
  import opened Chars

  datatype Date = Date(year: int, month: int, day: int)

  /** `datetime.MINYEAR` and `datetime.MAXYEAR`. */
  const MinYear: int := 1
  const MaxYear: int := 9999

  predicate IsLeap(y: int) {
    y % 4 == 0 && (y % 100 != 0 || y % 400 == 0)
  }

  function DaysInMonth(y: int, m: int): (n: int)
    requires 1 <= m <= 12
    ensures 28 <= n <= 31
    ensures n == 29 <==> m == 2 && IsLeap(y)
  {
    if m == 2 then (if IsLeap(y) then 29 else 28)
    else if m == 4 || m == 6 || m == 9 || m == 11 then 30
    else 31
  }

  function DaysInYear(y: int): int {
    if IsLeap(y) then 366 else 365
  }

  /** What the `date(year, month, day)` constructor accepts without raising `ValueError`. */
  predicate IsValid(d: Date) {
    && MinYear <= d.year <= MaxYear
    && 1 <= d.month <= 12
    && 1 <= d.day <= DaysInMonth(d.year, d.month)
  }

  /** Days in the years before `y`, counted from 0001-01-01. */
  function DaysBeforeYear(y: int): int
    requires y >= 1
  {
    var p := y - 1;
    365 * p + p / 4 - p / 100 + p / 400
  }

  /** Days in the months of year `y` before month `m`. */
  function DaysBeforeMonth(y: int, m: int): int
    requires 1 <= m <= 12
  {
    [0, 31, 59, 90, 120, 151, 181, 212, 243, 273, 304, 334][m - 1]
    + (if m > 2 && IsLeap(y) then 1 else 0)
  }

  /** `date.toordinal()`: 0001-01-01 is day 1. */
  function Ordinal(d: Date): int
    requires IsValid(d)
  {
    DaysBeforeYear(d.year) + DaysBeforeMonth(d.year, d.month) + d.day
  }

  /** The weekday of the day with ordinal `n`: 0 is Monday, 6 is Sunday. */
  function WeekdayOfOrdinal(n: int): (w: int)
    ensures 0 <= w < 7
  {
    (n + 6) % 7
  }

  /** `date.weekday()`. */
  function Weekday(d: Date): (w: int)
    requires IsValid(d)
    ensures 0 <= w < 7
  {
    WeekdayOfOrdinal(Ordinal(d))
  }

  /** The calendar day after `d` (which must not be the last representable day). */
  function NextDay(d: Date): Date
    requires IsValid(d)
  {
    if d.day < DaysInMonth(d.year, d.month) then Date(d.year, d.month, d.day + 1)
    else if d.month < 12 then Date(d.year, d.month + 1, 1)
    else Date(d.year + 1, 1, 1)
  }

  /** A year contributes its own length to the count of the years after it. */
  lemma DaysBeforeNextYear(y: int)
    requires y >= 1
    ensures DaysBeforeYear(y + 1) == DaysBeforeYear(y) + DaysInYear(y)
  {
    var p := y - 1;
    assert y / 4 == p / 4 + (if y % 4 == 0 then 1 else 0);
    assert y / 100 == p / 100 + (if y % 100 == 0 then 1 else 0);
    assert y / 400 == p / 400 + (if y % 400 == 0 then 1 else 0);
  }

  /** A month contributes its own length to the count of the months after it. */
  lemma DaysBeforeNextMonth(y: int, m: int)
    requires 1 <= m < 12
    ensures DaysBeforeMonth(y, m + 1) == DaysBeforeMonth(y, m) + DaysInMonth(y, m)
  {
  }

  /** The ordinal numbering is gap-free: the next day is exactly one ordinal later. */
  lemma NextDayIsNextOrdinal(d: Date)
    requires IsValid(d) && d != Date(MaxYear, 12, 31)
    ensures IsValid(NextDay(d))
    ensures Ordinal(NextDay(d)) == Ordinal(d) + 1
  {
    if d.day < DaysInMonth(d.year, d.month) {
    } else if d.month < 12 {
      DaysBeforeNextMonth(d.year, d.month);
    } else {
      DaysBeforeNextYear(d.year);
    }
  }

  /** Weekdays advance by one, cyclically, from each day to the next; together with
      `FirstDayIsMonday` this pins `Weekday` down as the true Gregorian weekday. */
  lemma WeekdayAdvances(d: Date)
    requires IsValid(d) && d != Date(MaxYear, 12, 31)
    ensures IsValid(NextDay(d))
    ensures Weekday(NextDay(d)) == (Weekday(d) + 1) % 7
  {
    NextDayIsNextOrdinal(d);
    var n := Ordinal(d);
    WeekdayOfNextOrdinal(n);
  }

  lemma WeekdayOfNextOrdinal(n: int)
    ensures WeekdayOfOrdinal(n + 1) == (WeekdayOfOrdinal(n) + 1) % 7
  {
  }

  /** 0001-01-01 of the proleptic Gregorian calendar is day 1, a Monday. */
  lemma FirstDayIsMonday()
    ensures IsValid(Date(MinYear, 1, 1))
    ensures Ordinal(Date(MinYear, 1, 1)) == 1
    ensures Weekday(Date(MinYear, 1, 1)) == 0
  {
    assert DaysBeforeYear(1) == 0;
    assert DaysBeforeMonth(1, 1) == 0;
    assert WeekdayOfOrdinal(1) == 0;
  }

  /** `%B` in the C locale. */
  function MonthName(m: int): string
    requires 1 <= m <= 12
  {
    ["January", "February", "March", "April", "May", "June", "July",
     "August", "September", "October", "November", "December"][m - 1]
  }

  /** `%A` in the C locale, indexed by `date.weekday()`. */
  function DayName(w: int): string
    requires 0 <= w < 7
  {
    ["Monday", "Tuesday", "Wednesday", "Thursday", "Friday", "Saturday", "Sunday"][w]
  }

  /** `strftime('%Y-%m-%d')`, with the year zero-padded to four digits. */
  function IsoDate(d: Date): (r: string)
    requires IsValid(d)
    ensures |r| == 10
  {
    Pad4(d.year) + "-" + Pad2(d.month) + "-" + Pad2(d.day)
  }

  /** Text of the exact shape `DDDD-DD-DD` (digits and two hyphens). */
  predicate IsDateText(c: string) {
    && |c| == 10
    && AllDigits(c[..4]) && c[4] == '-'
    && AllDigits(c[5..7]) && c[7] == '-'
    && AllDigits(c[8..])
  }

  /** The literal fields of `DDDD-DD-DD` text. */
  function DateOfText(c: string): Date
    requires IsDateText(c)
  {
    Date(DigitsValue(c[..4]), DigitsValue(c[5..7]), DigitsValue(c[8..]))
  }

  /** `YYYY-MM-DD` text that names a real calendar date. */
  predicate IsCanonicalDate(c: string) {
    IsDateText(c) && IsValid(DateOfText(c))
  }

  /** Rendering a date and reading its fields back gives the date again. */
  lemma DateTextRoundTrip(d: Date)
    requires IsValid(d)
    ensures IsCanonicalDate(IsoDate(d))
    ensures DateOfText(IsoDate(d)) == d
  {
    var c := IsoDate(d);
    assert c[..4] == Pad4(d.year);
    assert c[5..7] == Pad2(d.month);
    assert c[8..] == Pad2(d.day);
  }

  /** Reading the fields of canonical text and rendering them gives the text again. */
  lemma TextDateRoundTrip(c: string)
    requires IsCanonicalDate(c)
    ensures IsoDate(DateOfText(c)) == c
  {
    Pad4OfDigits(c[..4]);
    Pad2OfDigits(c[5..7]);
    Pad2OfDigits(c[8..]);
    assert c == c[..4] + "-" + c[5..7] + "-" + c[8..];
  }
}

=== FILE: chars.dfy ===
/** ASCII character classes, case mapping and decimal digit strings.

    Python's `str.isalnum`, `str.isspace`, `upper`/`lower` and `\d` are Unicode-aware; this
    model restricts all of them to ASCII (see README, "Left out").
 */
module Chars {

  predicate IsDigit(c: char) {
    '0' <= c <= '9'
  }

  predicate IsAsciiUpper(c: char) {
    'A' <= c <= 'Z'
  }

  predicate IsAsciiLower(c: char) {
    'a' <= c <= 'z'
  }

  /** `str.isalnum` on one ASCII character. */
  predicate IsAlnum(c: char) {
    IsDigit(c) || IsAsciiUpper(c) || IsAsciiLower(c)
  }

  /** `str.isspace` on one ASCII character: tab to carriage return, the four
      information separators 0x1C-0x1F, and the space itself. */
  predicate IsSpace(c: char) {
    c == ' ' || ('\t' <= c <= '\r') || ('\U{1C}' <= c <= '\U{1F}')
  }

  function ToUpper(c: char): (u: char)
    ensures IsAsciiLower(c) ==> IsAsciiUpper(u)
    ensures !IsAsciiLower(c) ==> u == c
  {
    if IsAsciiLower(c) then (c as int - 32) as char else c
  }

  function ToLower(c: char): (l: char)
    ensures IsAsciiUpper(c) ==> IsAsciiLower(l)
    ensures !IsAsciiUpper(c) ==> l == c
  {
    if IsAsciiUpper(c) then (c as int + 32) as char else c
  }

  /** Lower-cases every character of `s`. */
  function LowerAll(s: string): (r: string)
    ensures |r| == |s|
    ensures forall i :: 0 <= i < |s| ==> r[i] == ToLower(s[i])
  {
    if s == [] then [] else [ToLower(s[0])] + LowerAll(s[1..])
  }

  function DigitChar(d: nat): (c: char)
    requires d < 10
    ensures IsDigit(c)
  {
    (48 + d) as char
  }

  function DigitValue(c: char): (d: nat)
    requires IsDigit(c)
    ensures d < 10 && DigitChar(d) == c
  {
    c as int - 48
  }

  predicate AllDigits(s: string) {
    forall i :: 0 <= i < |s| ==> IsDigit(s[i])
  }

  /** The number a string of decimal digits denotes (`int(s)` on such a string). */
  function DigitsValue(s: string): nat
    requires AllDigits(s)
  {
    if s == [] then 0 else 10 * DigitsValue(s[..|s| - 1]) + DigitValue(s[|s| - 1])
  }

  lemma DigitsValue2(s: string)
    requires |s| == 2 && AllDigits(s)
    ensures DigitsValue(s) == 10 * DigitValue(s[0]) + DigitValue(s[1])
  {
    assert DigitsValue(s[..1]) == DigitValue(s[0]) by {
      assert s[..1][..0] == [];
    }
  }

  lemma DigitsValue4(s: string)
    requires |s| == 4 && AllDigits(s)
    ensures DigitsValue(s) == 1000 * DigitValue(s[0]) + 100 * DigitValue(s[1])
                              + 10 * DigitValue(s[2]) + DigitValue(s[3])
  {
    assert DigitsValue(s[..1]) == DigitValue(s[0]) by {
      assert s[..1][..0] == [];
    }
    assert DigitsValue(s[..2]) == 10 * DigitValue(s[0]) + DigitValue(s[1]) by {
      assert s[..2][..1] == s[..1];
    }
    assert DigitsValue(s[..3]) == 100 * DigitValue(s[0]) + 10 * DigitValue(s[1]) + DigitValue(s[2]) by {
      assert s[..3][..2] == s[..2];
    }
  }

  /** `"%02d" % n`: two zero-padded decimal digits. */
  function Pad2(n: nat): (r: string)
    requires n < 100
    ensures |r| == 2 && AllDigits(r)
    ensures DigitsValue(r) == n
  {
    var r := [DigitChar(n / 10), DigitChar(n % 10)];
    DigitsValue2(r);
    r
  }

  /** `"%04d" % n`: four zero-padded decimal digits. */
  function Pad4(n: nat): (r: string)
    requires n < 10000
    ensures |r| == 4 && AllDigits(r)
    ensures DigitsValue(r) == n
  {
    var hi, lo := Pad2(n / 100), Pad2(n % 100);
    DigitsValue22(hi, lo);
    hi + lo
  }

  /** Four digits read as two two-digit halves. */
  lemma DigitsValue22(hi: string, lo: string)
    requires |hi| == 2 && AllDigits(hi) && |lo| == 2 && AllDigits(lo)
    ensures AllDigits(hi + lo)
    ensures DigitsValue(hi + lo) == 100 * DigitsValue(hi) + DigitsValue(lo)
  {
    var r := hi + lo;
    assert r[0] == hi[0] && r[1] == hi[1] && r[2] == lo[0] && r[3] == lo[1];
    DigitsValue4(r);
    DigitsValue2(hi);
    DigitsValue2(lo);
  }

  /** Padding is the inverse of reading digits back: a two-digit string re-renders as itself. */
  lemma Pad2OfDigits(s: string)
    requires |s| == 2 && AllDigits(s)
    ensures DigitsValue(s) < 100
    ensures Pad2(DigitsValue(s)) == s
  {
    DigitsValue2(s);
  }

  /** A four-digit string re-renders as itself. */
  lemma Pad4OfDigits(s: string)
    requires |s| == 4 && AllDigits(s)
    ensures DigitsValue(s) < 10000
    ensures Pad4(DigitsValue(s)) == s
  {
    var hi, lo := s[..2], s[2..];
    assert s == hi + lo;
    DigitsValue22(hi, lo);
    Pad2OfDigits(hi);
    Pad2OfDigits(lo);
    var n := DigitsValue(s);
    assert n / 100 == DigitsValue(hi) && n % 100 == DigitsValue(lo);
  }

  /** `str(n)` for a natural number: the shortest decimal spelling. */
  function NatToString(n: nat): (r: string)
    ensures |r| >= 1 && AllDigits(r)
    ensures DigitsValue(r) == n
    ensures r[0] == '0' ==> n == 0
    ensures |r| > 1 ==> r[0] != '0'
  {
    if n < 10 then [DigitChar(n)]
    else
      var r := NatToString(n / 10) + [DigitChar(n % 10)];
      assert r[..|r| - 1] == NatToString(n / 10);
      r
  }

  /** Digits without a leading zero are the spelling `str` gives their value: `NatToString`
      is the only such spelling. */
  lemma {:induction false} NatToStringUnique(t: string)
    requires |t| >= 1 && AllDigits(t)
    requires |t| > 1 ==> t[0] != '0'
    ensures NatToString(DigitsValue(t)) == t
    decreases |t|
  {
    var last := t[|t| - 1];
    if |t| == 1 {
      assert t[..0] == [];
      assert t == [DigitChar(DigitValue(last))];
    } else {
      var p := t[..|t| - 1];
      assert p[0] == t[0];
      NatToStringUnique(p);
      var n := DigitsValue(t);
      assert n == 10 * DigitsValue(p) + DigitValue(last);
      assert DigitsValue(p) >= 1;
      assert n / 10 == DigitsValue(p) && n % 10 == DigitValue(last);
      assert t == p + [last];
    }
  }

  /** `str(n)` for any integer: a minus sign before the digits of a negative number. */
  function IntToString(n: int): string
  {
    if n >= 0 then NatToString(n) else "-" + NatToString(-n)
  }
}

=== FILE: daily_note.dfy ===
/** `generate_daily_note_link`: the path of the daily-journal note for a `%Y-%m-%d` date.

    The date is parsed with `strptime` and re-printed with `strftime`; there is no fallback,
    so text that is not such a date makes the helper raise `ValueError`.
 */
module DailyNote {
  import opened Chars
  import opened Results
  import opened Calendar
  import opened Strptime

  /** `/DailyNotes/<YYYY>/<MM>-<Month>/<YYYY-MM-DD>-<Weekday>.md` for the date `s` names. */
  function DailyNoteLink(s: string): (r: Result<string>)
    ensures r.Err? <==> ParseYmd(s).Err?
    ensures r.Err? ==> r.error == ParseYmd(s).error
  {
    var dt :- ParseYmd(s);
    Ok("/DailyNotes/" + Pad4(dt.year) + "/" + Pad2(dt.month) + "-" + MonthName(dt.month)
       + "/" + IsoDate(dt) + "-" + DayName(Weekday(dt)) + ".md")
  }

  /** On canonical `YYYY-MM-DD` text the link repeats the year, the month digits and the
      whole date exactly as written, with the English month name and the weekday. */
  lemma LinkOfCanonicalDate(s: string)
    requires IsCanonicalDate(s)
    ensures DailyNoteLink(s) == Ok("/DailyNotes/" + s[..4] + "/" + s[5..7] + "-"
                                   + MonthName(DateOfText(s).month) + "/" + s + "-"
                                   + DayName(Weekday(DateOfText(s))) + ".md")
  {
    var dt := DateOfText(s);
    TextDateRoundTrip(s);
    ParseIsoDate(dt);
    assert IsoDate(dt)[..4] == Pad4(dt.year);
    assert IsoDate(dt)[5..7] == Pad2(dt.month);
  }

  /** Every spelling of a date (`2024-1-5`, `2024-01- 5`, ...) yields the link of its
      canonical form: the link is always zero-padded. */
  lemma LinkIgnoresSpelling(s: string, dt: Date)
    requires IsValid(dt) && IsSpellingOf(s, dt)
    ensures DailyNoteLink(s) == DailyNoteLink(IsoDate(dt))
    ensures DailyNoteLink(s).Ok?
  {
    ParseComplete(s, dt);
    ParseIsoDate(dt);
  }

  /** The link exists exactly for the spellings of valid dates; everything else raises. */
  lemma LinkDefinedExactlyOnDates(s: string)
    ensures DailyNoteLink(s).Ok? <==> exists dt :: IsValid(dt) && IsSpellingOf(s, dt)
  {
    if DailyNoteLink(s).Ok? {
      ParseSound(s);
    }
    if exists dt :: IsValid(dt) && IsSpellingOf(s, dt) {
      var dt :| IsValid(dt) && IsSpellingOf(s, dt);
      ParseComplete(s, dt);
    }
  }

  /** No fallback: the empty string and the archive's own `created_at` form do not match
      the pattern at all. */
  lemma LinkRejectsNonDateText()
    ensures DailyNoteLink("") == Err(ValueError(FormatMismatch))
    ensures DailyNoteLink("Wed Oct 10 20:19:24 +0000 2018") == Err(ValueError(FormatMismatch))
  {
    var s := "Wed Oct 10 20:19:24 +0000 2018";
    assert !IsDigit(s[..4][0]);
  }

  /** Month 13 does not match `%m`: only its leading `1` is read and the hyphen is missing. */
  lemma LinkRejectsMonth13()
    ensures DailyNoteLink("2023-13-01") == Err(ValueError(FormatMismatch))
  {
    var s := "2023-13-01";
    assert AllDigits(s[..4]);
    assert MatchMonth(s[5..]) == Some(Token(1, 1));
  }

  /** Zero-padded fields that name no calendar date raise as out of range. */
  lemma LinkRejectsImpossibleDates(y: nat, m: int, d: int)
    requires y < 10000 && 1 <= m <= 12 && 1 <= d <= 31 && !IsValid(Date(y, m, d))
    ensures DailyNoteLink(Pad4(y) + "-" + Pad2(m) + "-" + Pad2(d)) == Err(ValueError(OutOfRange))
  {
    ParsePadded(y, m, d, "");
    assert Pad4(y) + "-" + Pad2(m) + "-" + Pad2(d) + "" == Pad4(y) + "-" + Pad2(m) + "-" + Pad2(d);
  }

  /** 29 February of a common year is well formed but no calendar date. */
  lemma LinkRejectsLeapDayOfCommonYear()
    ensures DailyNoteLink("2023-02-29") == Err(ValueError(OutOfRange))
  {
    CommonLeapDayFacts();
    LinkRejectsImpossibleDates(2023, 2, 29);
  }

  lemma CommonLeapDayFacts()
    ensures !IsValid(Date(2023, 2, 29))
    ensures Pad4(2023) + "-" + Pad2(2) + "-" + Pad2(29) == "2023-02-29"
  {
    assert !IsLeap(2023);
    Year2023Facts();
    assert Pad2(2) == "02" && Pad2(29) == "29";
  }

  lemma Year2023Facts()
    ensures Pad4(2023) == "2023"
  {
    assert Pad2(20) == "20" && Pad2(23) == "23";
  }

  /** Year 0 does not exist. */
  lemma LinkRejectsYearZero()
    ensures DailyNoteLink("0000-01-01") == Err(ValueError(OutOfRange))
  {
    assert Pad2(0) == "00" && Pad2(1) == "01";
    LinkRejectsImpossibleDates(0, 1, 1);
    assert Pad4(0) + "-" + Pad2(1) + "-" + Pad2(1) == "0000-01-01";
  }

  /** Any text after a zero-padded date raises "unconverted data remains". */
  lemma LinkRejectsTrailingText(dt: Date, tail: string)
    requires IsValid(dt) && tail != []
    ensures DailyNoteLink(IsoDate(dt) + tail) == Err(ValueError(UnconvertedData))
  {
    ParsePadded(dt.year, dt.month, dt.day, tail);
  }

  /** Day 32 raises the same error: `%d` reads only its `3`. */
  lemma LinkRejectsDay32()
    ensures DailyNoteLink("2024-01-32") == Err(ValueError(UnconvertedData))
  {
    var t := "2024-01-32";
    assert AllDigits(t[..4]);
    assert MatchMonth(t[5..]) == Some(Token(2, 1));
    assert MatchDay(t[8..]) == Some(Token(1, 3));
  }

  /** The link of text read as `dt`, assembled from given renderings of its fields. */
  lemma LinkOfParts(s: string, dt: Date, y: string, m: string, mn: string, iso: string, dn: string)
    requires ParseYmd(s) == Ok(dt)
    requires y == Pad4(dt.year) && m == Pad2(dt.month) && mn == MonthName(dt.month)
    requires iso == IsoDate(dt) && dn == DayName(Weekday(dt))
    ensures DailyNoteLink(s) == Ok("/DailyNotes/" + y + "/" + m + "-" + mn + "/" + iso + "-" + dn + ".md")
  {
  }

  lemma Year2024Facts()
    ensures Pad4(2024) == "2024" && DaysBeforeYear(2024) == 738885
  {
    assert Pad2(20) == "20" && Pad2(24) == "24";
  }

  lemma LeapDayFacts(dt: Date)
    requires dt == Date(2024, 2, 29)
    ensures IsValid(dt)
    ensures Pad4(dt.year) == "2024" && Pad2(dt.month) == "02" && IsoDate(dt) == "2024-02-29"
    ensures MonthName(dt.month) == "February" && DayName(Weekday(dt)) == "Thursday"
  {
    Year2024Facts();
    assert Pad2(2) == "02" && Pad2(29) == "29";
    assert Ordinal(dt) == 738945;
    assert WeekdayOfOrdinal(738945) == 3;
  }

  /** A leap day: 29 February 2024 was a Thursday, so its note is
      `/DailyNotes/2024/02-February/2024-02-29-Thursday.md`. */
  lemma LinkOfLeapDay()
    ensures DailyNoteLink("2024-02-29")
            == Ok("/DailyNotes/" + "2024" + "/" + "02" + "-" + "February" + "/" + "2024-02-29" + "-" + "Thursday" + ".md")
  {
    var dt := Date(2024, 2, 29);
    LeapDayFacts(dt);
    ParseIsoDate(dt);
    LinkOfParts("2024-02-29", dt, "2024", "02", "February", "2024-02-29", "Thursday");
  }

  lemma FifthOfJanuaryFacts(dt: Date)
    requires dt == Date(2024, 1, 5)
    ensures IsValid(dt)
    ensures Pad4(dt.year) == "2024" && Pad2(dt.month) == "01" && IsoDate(dt) == "2024-01-05"
    ensures MonthName(dt.month) == "January" && DayName(Weekday(dt)) == "Friday"
  {
    Year2024Facts();
    assert Pad2(1) == "01" && Pad2(5) == "05";
    assert Ordinal(dt) == 738890;
    assert WeekdayOfOrdinal(738890) == 4;
  }

  lemma ShortSpellingsOfFifthOfJanuary(dt: Date)
    requires dt == Date(2024, 1, 5)
    ensures IsValid(dt)
    ensures IsSpellingOf("2024-1-5", dt) && IsSpellingOf("2024-01- 5", dt)
  {
    Year2024Facts();
    assert Pad2(1) == "01" && Pad2(5) == "05";
    assert "1" in MonthSpellings(1) && "01" in MonthSpellings(1);
    assert "5" in DaySpellings(5) && " 5" in DaySpellings(5);
    assert "2024-1-5" == Pad4(2024) + "-" + "1" + "-" + "5";
    assert "2024-01- 5" == Pad4(2024) + "-" + "01" + "-" + " 5";
  }

  /** Single-digit months and days (with or without a leading space) are accepted and
      re-printed zero-padded: both spellings below link to
      `/DailyNotes/2024/01-January/2024-01-05-Friday.md`. */
  lemma LinkPadsShortFields()
    ensures DailyNoteLink("2024-1-5")
            == Ok("/DailyNotes/" + "2024" + "/" + "01" + "-" + "January" + "/" + "2024-01-05" + "-" + "Friday" + ".md")
    ensures DailyNoteLink("2024-01- 5") == DailyNoteLink("2024-1-5")
  {
    var dt := Date(2024, 1, 5);
    ShortSpellingsOfFifthOfJanuary(dt);
    FifthOfJanuaryFacts(dt);
    ParseComplete("2024-1-5", dt);
    LinkIgnoresSpelling("2024-01- 5", dt);
    LinkIgnoresSpelling("2024-1-5", dt);
    LinkOfParts("2024-1-5", dt, "2024", "01", "January", "2024-01-05", "Friday");
  }
}

=== FILE: file_names.dfy ===
/** `sanitize_filename` and the driver's output path: each tweet is written to
    `os.path.join(output_dir, sanitize_filename(tweet.get('id', 'Unknown tweet')) + ".md")`.
 */
module FileNames {
  import opened Chars
  import opened Results
  import opened Values
  import opened Strip

  /** The characters `sanitize_filename` keeps: `c.isalnum() or c in " ._-"`. */
  predicate IsSafeChar(c: char) {
    IsAlnum(c) || c == ' ' || c == '.' || c == '_' || c == '-'
  }

  predicate AllSafe(s: string) {
    forall i :: 0 <= i < |s| ==> IsSafeChar(s[i])
  }

  /** `a` is `b` with some characters deleted. */
  predicate IsSubsequence(a: string, b: string)
    decreases |b|
  {
    if b == [] then a == []
    else (a != [] && a[0] == b[0] && IsSubsequence(a[1..], b[1..])) || IsSubsequence(a, b[1..])
  }

  lemma {:induction false} EmptySubsequence(b: string)
    ensures IsSubsequence([], b)
    decreases |b|
  {
    if b != [] {
      EmptySubsequence(b[1..]);
    }
  }

  /** A prefix of a subsequence is a subsequence. */
  lemma {:induction false} SubsequencePrefix(a: string, b: string, k: nat)
    requires k <= |a| && IsSubsequence(a, b)
    ensures IsSubsequence(a[..k], b)
    decreases |b|
  {
    if k == 0 {
      EmptySubsequence(b);
    } else if a[0] == b[0] && IsSubsequence(a[1..], b[1..]) {
      SubsequencePrefix(a[1..], b[1..], k - 1);
      assert a[..k][1..] == a[1..][..k - 1];
    } else {
      SubsequencePrefix(a, b[1..], k);
    }
  }

  /** The character filter `"".join(c for c in name if ...)`. */
  function KeepSafe(s: string): string {
    if s == [] then []
    else if IsSafeChar(s[0]) then [s[0]] + KeepSafe(s[1..])
    else KeepSafe(s[1..])
  }

  /** The filter keeps only safe characters, drops characters without reordering, and
      leaves all-safe text alone. */
  lemma {:induction false} KeepSafeSpec(s: string)
    ensures AllSafe(KeepSafe(s))
    ensures IsSubsequence(KeepSafe(s), s)
    ensures AllSafe(s) ==> KeepSafe(s) == s
    decreases |s|
  {
    if s != [] {
      var t := KeepSafe(s[1..]);
      KeepSafeSpec(s[1..]);
      if IsSafeChar(s[0]) {
        var r := [s[0]] + t;
        assert KeepSafe(s) == r;
        assert r[1..] == t;
        assert forall i :: 1 <= i < |r| ==> r[i] == t[i - 1];
        if AllSafe(s) {
          assert forall i :: 0 <= i < |s| - 1 ==> s[1..][i] == s[i + 1];
          assert s == [s[0]] + s[1..];
        }
      }
    }
  }

  /** The filter works character by character: it distributes over concatenation, keeping a
      safe character and dropping any other. Together these determine it. */
  lemma {:induction false} KeepSafeConcat(a: string, b: string)
    ensures KeepSafe(a + b) == KeepSafe(a) + KeepSafe(b)
    ensures KeepSafe([]) == []
    ensures forall c :: KeepSafe([c]) == (if IsSafeChar(c) then [c] else [])
  {
    if a != [] {
      var c := a + b;
      assert c[0] == a[0] && c[1..] == a[1..] + b;
      KeepSafeConcat(a[1..], b);
      var x, y := KeepSafe(a[1..]), KeepSafe(b);
      if IsSafeChar(a[0]) {
        assert KeepSafe(c) == [a[0]] + (x + y);
        assert [a[0]] + (x + y) == ([a[0]] + x) + y;
      }
    } else {
      assert a + b == b;
    }
    forall c
      ensures KeepSafe([c]) == (if IsSafeChar(c) then [c] else [])
    {
      assert [c][1..] == [];
    }
  }

  /** What a bare `str.rstrip()` removes: the characters `str.isspace` accepts. */
  const Whitespace: set<char> :=
    {' ', '\t', '\n', '\U{B}', '\U{C}', '\r', '\U{1C}', '\U{1D}', '\U{1E}', '\U{1F}'}

  /** `sanitize_filename(name)`: the filter, then `rstrip()`. */
  function SanitizeFilename(s: string): (r: string)
    ensures AllSafe(r) && '/' !in r
    ensures IsSubsequence(r, s)
    ensures r == [] || r[|r| - 1] != ' '
    ensures |r| <= |KeepSafe(s)| && r == KeepSafe(s)[..|r|]
    ensures forall i :: |r| <= i < |KeepSafe(s)| ==> KeepSafe(s)[i] == ' '
  {
    var k := KeepSafe(s);
    var r := RStripChars(k, Whitespace);
    KeepSafeSpec(s);
    RStripSpec(k, Whitespace);
    SubsequencePrefix(k, s, |r|);
    SafeWhitespaceIsSpace(k, |r|);
    assert forall i :: 0 <= i < |r| ==> r[i] == k[i];
    r
  }

  /** Among the kept characters, the only whitespace is the space itself. */
  lemma SafeWhitespaceIsSpace(k: string, n: nat)
    requires n <= |k| && AllSafe(k) && AllIn(k[n..], Whitespace)
    ensures forall i :: n <= i < |k| ==> k[i] == ' '
  {
    forall i | n <= i < |k|
      ensures k[i] == ' '
    {
      assert k[n..][i - n] == k[i];
      assert k[i] in Whitespace && IsSafeChar(k[i]);
    }
  }

  /** Sanitising twice is sanitising once. */
  lemma SanitizeIdempotent(s: string)
    ensures SanitizeFilename(SanitizeFilename(s)) == SanitizeFilename(s)
  {
    var r := SanitizeFilename(s);
    KeepSafeSpec(r);
    assert r == [] || !IsSpace(r[|r| - 1]);
  }

  /** The file name for one tweet, `f"{sanitize_filename(tweet.get('id', 'Unknown tweet'))}.md"`.
      An id that is not a string (a number, a boolean, `null`) cannot be iterated, and the
      generator raises `TypeError`. */
  function OutputFileName(tweet: Tweet): (r: Result<string>)
    ensures r.Err? <==> "id" in tweet && !tweet["id"].Str?
    ensures r.Ok? ==> '/' !in r.value && |r.value| >= 3 && r.value[|r.value| - 3..] == ".md"
    ensures "id" !in tweet ==> r == Ok(SanitizeFilename("Unknown tweet") + ".md")
    ensures "id" in tweet && tweet["id"].Str? ==> r == Ok(SanitizeFilename(tweet["id"].s) + ".md")
  {
    match Get(tweet, "id", Str("Unknown tweet"))
    case Str(id) =>
      var b := SanitizeFilename(id);
      var n := b + ".md";
      assert n[|b|..] == ".md";
      assert forall i :: 0 <= i < |n| ==> n[i] == (if i < |b| then b[i] else ".md"[i - |b|]);
      Ok(n)
    case _ => Err(TypeError("object is not iterable"))
  }

  /** The names sanitising leaves alone are exactly those made of kept characters that
      do not end in whitespace. */
  lemma SanitizeFixpoints(s: string)
    ensures SanitizeFilename(s) == s <==> AllSafe(s) && (s == [] || !IsSpace(s[|s| - 1]))
  {
    KeepSafeSpec(s);
  }

  /** A dropped character leaves no trace: deleting it first changes nothing. */
  lemma SanitizeDropsUnsafe(a: string, c: char, b: string)
    requires !IsSafeChar(c)
    ensures SanitizeFilename(a + [c] + b) == SanitizeFilename(a + b)
  {
    KeepSafeConcat(a + [c], b);
    KeepSafeConcat(a, [c]);
    KeepSafeConcat(a, b);
    assert KeepSafe(a) + [] == KeepSafe(a);
  }

  /** A tweet without an id is written to `Unknown tweet.md`. */
  lemma MissingIdName(tweet: Tweet)
    requires "id" !in tweet
    ensures OutputFileName(tweet) == Ok("Unknown tweet.md")
  {
    UnknownTweetIsClean("Unknown tweet");
  }

  lemma UnknownTweetIsClean(u: string)
    requires u == "Unknown tweet"
    ensures SanitizeFilename(u) == u && u + ".md" == "Unknown tweet.md"
  {
    assert forall i :: 0 <= i < |u| ==> IsSafeChar(u[i]);
    assert !IsSpace(u[|u| - 1]);
    SanitizeFixpoints(u);
  }

  lemma SlashedIdFacts(a: string, b: string)
    requires a == "1/2" && b == "12"
    ensures SanitizeFilename(a) == SanitizeFilename(b) == b
  {
    SanitizeDropsUnsafe("1", '/', "2");
    assert "1" + ['/'] + "2" == a && "1" + "2" == b;
    assert !IsSpace(b[1]) && AllSafe(b);
    SanitizeFixpoints(b);
  }

  /** Distinct ids can share a file, and the later tweet overwrites the earlier: `1/2` and
      `12` are both written to `12.md`. */
  lemma IdsCollide()
    ensures OutputFileName(map["id" := Str("1/2")]) == OutputFileName(map["id" := Str("12")]) == Ok("12.md")
  {
    SlashedIdFacts("1/2", "12");
    assert "12" + ".md" == "12.md";
  }

  /** `os.path.join(a, b)` on POSIX for two parts. */
  function JoinPath(a: string, b: string): string {
    if |b| > 0 && b[0] == '/' then b
    else if a == [] || a[|a| - 1] == '/' then a + b
    else a + "/" + b
  }

  /** The last component of a path: what follows its last `/`. */
  function BaseName(p: string): (r: string)
    ensures '/' !in r
    ensures |r| <= |p| && r == p[|p| - |r|..]
  {
    if p == [] then []
    else if p[|p| - 1] == '/' then []
    else BaseName(p[..|p| - 1]) + [p[|p| - 1]]
  }

  lemma {:induction false} BaseNameAfterSlash(d: string, n: string)
    requires '/' !in n
    requires d == [] || d[|d| - 1] == '/'
    ensures BaseName(d + n) == n
    decreases |n|
  {
    if n == [] {
      assert d + n == d;
    } else {
      var p := d + n;
      assert p[..|p| - 1] == d + n[..|n| - 1];
      assert p != [] && p[|p| - 1] != '/';
      assert BaseName(p) == BaseName(p[..|p| - 1]) + [p[|p| - 1]];
      assert p[|p| - 1] == n[|n| - 1];
      BaseNameAfterSlash(d, n[..|n| - 1]);
      assert n == n[..|n| - 1] + [n[|n| - 1]];
    }
  }

  /** The directory as a path prefix: `dir` itself when it is empty or already ends in `/`,
      otherwise `dir` with one `/` appended. */
  function DirPrefix(dir: string): (d: string)
    ensures d == dir || d == dir + "/"
    ensures d == [] <==> dir == []
    ensures d != [] ==> d[|d| - 1] == '/'
  {
    if dir == [] || dir[|dir| - 1] == '/' then dir else dir + "/"
  }

  /** Joining a directory with a name that holds no `/` puts the file directly inside
      that directory: the path is the directory, a separating `/` where one is missing, and
      the name, so the name is the path's last component. */
  lemma JoinPathInDirectory(dir: string, name: string)
    requires name != [] && '/' !in name
    ensures JoinPath(dir, name) == DirPrefix(dir) + name
    ensures JoinPath(dir, name)[..|dir|] == dir
    ensures BaseName(JoinPath(dir, name)) == name
  {
    assert name[0] != '/';
    var d := DirPrefix(dir);
    assert JoinPath(dir, name) == d + name;
    assert (d + name)[..|dir|] == dir;
    BaseNameAfterSlash(d, name);
  }

  /** Where the tweet's note is written. */
  function OutputPath(outputDir: string, tweet: Tweet): (r: Result<string>)
    ensures r.Err? <==> OutputFileName(tweet).Err?
    ensures r.Ok? ==> OutputFileName(tweet).Ok? && |r.value| > |outputDir|
    ensures r.Ok? ==> r.value[..|outputDir|] == outputDir
    ensures r.Ok? ==> r.value == DirPrefix(outputDir) + OutputFileName(tweet).value
    ensures r.Ok? ==> BaseName(r.value) == OutputFileName(tweet).value
  {
    match OutputFileName(tweet)
    case Err(e) => Err(e)
    case Ok(name) =>
      assert name != [] && '/' !in name;
      JoinPathInDirectory(outputDir, name);
      var p := JoinPath(outputDir, name);
      assert p == DirPrefix(outputDir) + name && p[..|outputDir|] == outputDir;
      assert BaseName(p) == name;
      Ok(p)
  }
}

=== FILE: iso_dates.dfy ===
/** `format_date`: display a timestamp as `YYYY-MM-DD`, or leave it alone.

    The helper rewrites every `Z` to `+00:00`, hands the result to `datetime.fromisoformat`,
    and on success prints the parsed value with `%Y-%m-%d`; on `ValueError` it returns its
    argument as given (before the rewrite). No time-zone conversion takes place: the date
    printed is the date written.

    The accepted grammar is modelled as the ISO 8601 extended calendar date (section
    5.2.1.1 of ISO 8601, `YYYY-MM-DD`), optionally followed by any one separator character
    and a time: `hh`, `hh:mm`, `hh:mm:ss`, or `hh:mm:ss` with three or six fraction digits,
    then optionally a UTC offset `+hh:mm` or `-hh:mm`, itself optionally followed by `:ss` or
    `:ss.ffffff`. Every Python 3.7+ `fromisoformat` accepts these strings.
 */
module IsoDates {
  import opened Chars
  import opened Calendar

  /** `s.replace("Z", "+00:00")`. */
  function ReplaceZ(s: string): string {
    if s == [] then []
    else (if s[0] == 'Z' then "+00:00" else [s[0]]) + ReplaceZ(s[1..])
  }

  /** After the rewrite no `Z` is left, and text without `Z` is left unchanged. */
  lemma {:induction false} ReplaceZRemovesZ(s: string)
    ensures 'Z' !in ReplaceZ(s)
    ensures 'Z' !in s ==> ReplaceZ(s) == s
    decreases |s|
  {
    if s != [] {
      var h := if s[0] == 'Z' then "+00:00" else [s[0]];
      var r := ReplaceZ(s[1..]);
      ReplaceZRemovesZ(s[1..]);
      assert ReplaceZ(s) == h + r;
      forall i | 0 <= i < |h + r|
        ensures (h + r)[i] != 'Z'
      {
        if i >= |h| {
          assert (h + r)[i] == r[i - |h|];
        }
      }
      if 'Z' !in s {
        assert s[0] != 'Z';
        assert forall i :: 0 <= i < |s| - 1 ==> s[1..][i] == s[i + 1];
        assert s == [s[0]] + s[1..];
      }
    }
  }

  /** The rewrite leaves a `Z`-free prefix in place, and turns the first `Z` of a prefix
      into a `+` within the same number of characters. */
  lemma {:induction false} ReplaceZPrefix(s: string, k: nat)
    requires k <= |s|
    ensures k <= |ReplaceZ(s)|
    ensures 'Z' !in s[..k] ==> ReplaceZ(s)[..k] == s[..k]
    ensures 'Z' in s[..k] ==> exists j :: 0 <= j < k && ReplaceZ(s)[j] == '+'
  {
    if k > 0 {
      var r := ReplaceZ(s[1..]);
      ReplaceZPrefix(s[1..], k - 1);
      assert s[..k] == [s[0]] + s[1..][..k - 1];
      if s[0] == 'Z' {
        assert ReplaceZ(s) == "+00:00" + r;
        assert s[..k][0] == 'Z';
        assert ReplaceZ(s)[0] == '+';
      } else {
        assert ReplaceZ(s) == [s[0]] + r;
        if 'Z' in s[..k] {
          assert 'Z' in s[1..][..k - 1];
          var j :| 0 <= j < k - 1 && r[j] == '+';
          assert ReplaceZ(s)[j + 1] == '+';
        } else {
          assert ReplaceZ(s)[..k] == [s[0]] + r[..k - 1];
        }
      }
    }
  }

  /** When the rewritten text starts with ten characters none of which is `+`, the
      original text has those same ten characters. */
  lemma ZFreePrefix(s: string)
    requires |ReplaceZ(s)| >= 10 && '+' !in ReplaceZ(s)[..10]
    ensures |s| >= 10 && ReplaceZ(s)[..10] == s[..10]
  {
    var t := ReplaceZ(s);
    var k := if |s| < 10 then |s| else 10;
    ReplaceZPrefix(s, k);
    ReplaceZRemovesZ(s);
    forall j | 0 <= j < k
      ensures t[j] != '+'
    {
      assert t[..10][j] == t[j];
    }
    assert s[..|s|] == s;
  }

  /** `DDDD-DD-DD` text holds only digits and hyphens, so neither a `+` nor a `Z`. */
  lemma DateTextHasNoPlusOrZ(c: string)
    requires IsDateText(c)
    ensures '+' !in c && 'Z' !in c
  {
    forall i | 0 <= i < |c|
      ensures IsDigit(c[i]) || c[i] == '-'
    {
      if i < 4 {
        assert c[..4][i] == c[i];
      } else if 5 <= i < 7 {
        assert c[5..7][i - 5] == c[i];
      } else if 8 <= i {
        assert c[8..][i - 8] == c[i];
      }
    }
  }

  /** Two digits reading as a number below `bound`. */
  predicate IsTwoDigitsBelow(x: string, bound: nat) {
    |x| == 2 && AllDigits(x) && DigitsValue(x) < bound
  }

  /** `hh:mm` with hour 00-23 and minute 00-59. */
  predicate IsHourMinute(x: string) {
    |x| == 5 && IsTwoDigitsBelow(x[..2], 24) && x[2] == ':' && IsTwoDigitsBelow(x[3..], 60)
  }

  /** The clock part of a time: `hh`, `hh:mm`, `hh:mm:ss`, `hh:mm:ss.fff` or
      `hh:mm:ss.ffffff`, with the hour below 24 and the minute and second below 60. */
  predicate IsClock(x: string) {
    || IsTwoDigitsBelow(x, 24)
    || IsHourMinute(x)
    || (&& |x| >= 8 && IsHourMinute(x[..5]) && x[5] == ':' && IsTwoDigitsBelow(x[6..8], 60)
        && (|x| == 8 || ((|x| == 12 || |x| == 15) && x[8] == '.' && AllDigits(x[9..]))))
  }

  /** A UTC offset: `+` or `-`, then `hh:mm`, `hh:mm:ss` or `hh:mm:ss.ffffff`. */
  predicate IsOffset(x: string) {
    && |x| >= 6 && (x[0] == '+' || x[0] == '-') && IsHourMinute(x[1..6])
    && (|x| == 6 || ((|x| == 9 || |x| == 16) && x[6] == ':' && IsTwoDigitsBelow(x[7..9], 60)
                     && (|x| == 9 || (x[9] == '.' && AllDigits(x[10..])))))
  }

  /** A clock of `k` characters followed by an offset. */
  predicate ClockThenOffset(x: string, k: nat) {
    k < |x| && IsClock(x[..k]) && IsOffset(x[k..])
  }

  /** A clock, optionally followed by an offset. A clock holds no sign, so the offset starts
      at the first `+` or `-`, where `fromisoformat` looks for it. */
  predicate IsTime(x: string) {
    || IsClock(x)
    || ClockThenOffset(x, 2) || ClockThenOffset(x, 5) || ClockThenOffset(x, 8)
    || ClockThenOffset(x, 12) || ClockThenOffset(x, 15)
  }

  /** What may follow the date: nothing, or any one separator character and a time. */
  predicate IsDateRest(x: string) {
    x == "" || IsTime(x[1..])
  }

  /** The modelled `fromisoformat` grammar. */
  predicate IsoAccepts(t: string) {
    |t| >= 10 && IsCanonicalDate(t[..10]) && IsDateRest(t[10..])
  }

  /** `format_date(date_str)`. */
  function FormatDate(s: string): (r: string)
    ensures r == s || (|s| >= 10 && r == s[..10] && IsCanonicalDate(r))
    ensures IsoAccepts(ReplaceZ(s)) ==> |s| >= 10 && r == s[..10]
    ensures !IsoAccepts(ReplaceZ(s)) ==> r == s
  {
    var t := ReplaceZ(s);
    if IsoAccepts(t) then
      DateTextHasNoPlusOrZ(t[..10]);
      ZFreePrefix(s);
      TextDateRoundTrip(t[..10]);
      IsoDate(DateOfText(t[..10]))
    else s
  }

  /** A canonical date is a fixpoint. */
  lemma FormatDateKeepsCanonicalDate(s: string)
    requires IsCanonicalDate(s)
    ensures FormatDate(s) == s
  {
    assert s[..10] == s;
    assert s[10..] == "";
  }

  /** Formatting twice is formatting once. */
  lemma FormatDateIdempotent(s: string)
    ensures FormatDate(FormatDate(s)) == FormatDate(s)
  {
    var r := FormatDate(s);
    if r != s {
      FormatDateKeepsCanonicalDate(r);
    }
  }

  /** A date followed by a time and an offset displays as the date as written; the offset is
      not applied. */
  lemma FormatDateDropsTime(date: string, rest: string)
    requires IsCanonicalDate(date) && IsDateRest(rest) && 'Z' !in date + rest
    ensures FormatDate(date + rest) == date
  {
    var s := date + rest;
    ReplaceZRemovesZ(s);
    assert s[..10] == date;
    assert s[10..] == rest;
  }

  /** `hh:mm:ss` followed by the offset `<sign>hh:mm`. */
  function ClockText(h: nat, m: nat, sec: nat, sign: char, oh: nat, om: nat): (r: string)
    requires h < 24 && m < 60 && sec < 60 && oh < 24 && om < 60
    ensures |r| == 14
  {
    Pad2(h) + ":" + Pad2(m) + ":" + Pad2(sec) + [sign] + Pad2(oh) + ":" + Pad2(om)
  }

  lemma HourMinuteOf(h: nat, m: nat)
    requires h < 24 && m < 60
    ensures IsHourMinute(Pad2(h) + ":" + Pad2(m))
  {
    var x := Pad2(h) + ":" + Pad2(m);
    assert x[..2] == Pad2(h) && x[3..] == Pad2(m);
  }

  /** Every date-and-time with a numeric UTC offset is accepted by the grammar, whatever
      character separates the time from the date. */
  lemma ClockTextAccepted(sep: char, h: nat, m: nat, sec: nat, sign: char, oh: nat, om: nat)
    requires sign == '+' || sign == '-'
    requires h < 24 && m < 60 && sec < 60 && oh < 24 && om < 60
    ensures IsDateRest([sep] + ClockText(h, m, sec, sign, oh, om))
  {
    var c := ClockText(h, m, sec, sign, oh, om);
    var x := ([sep] + c)[1..];
    assert x == c;
    HourMinuteOf(h, m);
    HourMinuteOf(oh, om);
    var clock := c[..8];
    assert clock[..5] == Pad2(h) + ":" + Pad2(m);
    assert clock[6..8] == Pad2(sec);
    assert IsClock(clock);
    var off := c[8..];
    assert off == [sign] + (Pad2(oh) + ":" + Pad2(om));
    assert off[1..6] == Pad2(oh) + ":" + Pad2(om);
    assert ClockThenOffset(c, 8);
  }

  /** A timestamp with a time and any offset displays as its date as written: the offset is
      never applied, so an evening time west of UTC keeps its local date. */
  lemma FormatDateIgnoresOffset(d: Date, sep: char, h: nat, m: nat, sec: nat, sign: char, oh: nat, om: nat)
    requires IsValid(d) && sep != 'Z'
    requires sign == '+' || sign == '-'
    requires h < 24 && m < 60 && sec < 60 && oh < 24 && om < 60
    ensures FormatDate(IsoDate(d) + [sep] + ClockText(h, m, sec, sign, oh, om)) == IsoDate(d)
  {
    var date := IsoDate(d);
    var rest := [sep] + ClockText(h, m, sec, sign, oh, om);
    var s := date + [sep] + ClockText(h, m, sec, sign, oh, om);
    assert s == date + rest;
    ClockTextAccepted(sep, h, m, sec, sign, oh, om);
    ClockTextHasNoZ(sep, h, m, sec, sign, oh, om);
    DateTextHasNoPlusOrZ(date) by {
      DateTextRoundTrip(d);
    }
    ReplaceZRemovesZ(date);
    ReplaceZRemovesZ(rest);
    ReplaceZAppend(date, rest);
    AcceptsDateAndRest(d, rest);
    AcceptedKeepsPrefix(s, date);
  }

  /** Date-and-time text after the date holds no `Z`. */
  lemma ClockTextHasNoZ(sep: char, h: nat, m: nat, sec: nat, sign: char, oh: nat, om: nat)
    requires sep != 'Z'
    requires sign == '+' || sign == '-'
    requires h < 24 && m < 60 && sec < 60 && oh < 24 && om < 60
    ensures 'Z' !in [sep] + ClockText(h, m, sec, sign, oh, om)
  {
    var x := [sep] + ClockText(h, m, sec, sign, oh, om);
    assert forall i :: 0 <= i < |x| ==> x[i] != 'Z';
  }

  /** A trailing `Z` (UTC) stands for `+00:00`: when the time with that offset is well
      formed, the date is kept. */
  lemma FormatDateOfZuluTime(date: string, sep: char, clock: string)
    requires IsCanonicalDate(date) && sep != 'Z'
    requires 'Z' !in clock && IsTime(clock + "+00:00")
    ensures FormatDate(date + [sep] + clock + "Z") == date
  {
    var s := date + [sep] + clock + "Z";
    var rest := [sep] + (clock + "+00:00");
    ZuluReplaced(date, sep, clock);
    assert rest[1..] == clock + "+00:00";
    AcceptsCanonicalAndRest(date, rest);
    assert s[..10] == date;
    AcceptedKeepsPrefix(s, date);
  }

  /** JavaScript's `toISOString` form `YYYY-MM-DDThh:mm:ss.fffZ`, milliseconds and all, displays
      as its date. */
  lemma FormatDateOfMillisecondUtc(date: string, h: nat, m: nat, sec: nat, frac: string)
    requires IsCanonicalDate(date) && h < 24 && m < 60 && sec < 60
    requires |frac| == 3 && AllDigits(frac)
    ensures FormatDate(date + "T" + (Pad2(h) + ":" + Pad2(m) + ":" + Pad2(sec) + "." + frac) + "Z") == date
  {
    var hm := Pad2(h) + ":" + Pad2(m);
    var clock := hm + ":" + Pad2(sec) + "." + frac;
    assert clock == Pad2(h) + ":" + Pad2(m) + ":" + Pad2(sec) + "." + frac;
    MillisecondClock(hm, Pad2(sec), frac, h, m);
    var x := clock + "+00:00";
    assert x[..12] == clock && x[12..] == "+00:00";
    UtcOffset();
    assert ClockThenOffset(x, 12);
    assert date + "T" + clock + "Z" == date + ['T'] + clock + "Z";
    FormatDateOfZuluTime(date, 'T', clock);
  }

  /** `hh:mm:ss.fff` is a clock, and holds no `Z`. */
  lemma MillisecondClock(hm: string, ss: string, frac: string, h: nat, m: nat)
    requires h < 24 && m < 60 && hm == Pad2(h) + ":" + Pad2(m)
    requires IsTwoDigitsBelow(ss, 60) && |frac| == 3 && AllDigits(frac)
    ensures IsClock(hm + ":" + ss + "." + frac)
    ensures 'Z' !in hm + ":" + ss + "." + frac
  {
    var c := hm + ":" + ss + "." + frac;
    HourMinuteOf(h, m);
    assert c[..5] == hm && c[5] == ':' && c[6..8] == ss && c[8] == '.' && c[9..] == frac;
    forall i | 0 <= i < |c|
      ensures c[i] != 'Z'
    {
      if i < 2 {
        assert c[i] == Pad2(h)[i];
      } else if 3 <= i < 5 {
        assert c[i] == Pad2(m)[i - 3];
      } else if 6 <= i < 8 {
        assert c[i] == ss[i - 6];
      } else if 9 <= i {
        assert c[i] == frac[i - 9];
      }
    }
  }

  /** `+00:00`, what a `Z` becomes, is an offset. */
  lemma UtcOffset()
    ensures IsOffset("+00:00")
  {
    HourMinuteOf(0, 0);
    assert Pad2(0) == "00";
    assert "+00:00"[1..6] == Pad2(0) + ":" + Pad2(0);
  }

  /** Only the final `Z` is rewritten. */
  lemma ZuluReplaced(date: string, sep: char, clock: string)
    requires IsDateText(date) && sep != 'Z' && 'Z' !in clock
    ensures ReplaceZ(date + [sep] + clock + "Z") == date + ([sep] + (clock + "+00:00"))
  {
    var pre := date + [sep] + clock;
    DateTextHasNoPlusOrZ(date);
    forall i | 0 <= i < |pre|
      ensures pre[i] != 'Z'
    {
      if i < |date| {
        assert pre[i] == date[i];
      } else if i > |date| {
        assert pre[i] == clock[i - |date| - 1];
      }
    }
    ReplaceZRemovesZ(pre);
    ReplaceZAppend(pre, "Z");
    ReplaceZOfZ();
  }

  lemma ReplaceZOfZ()
    ensures ReplaceZ("Z") == "+00:00"
  {
    assert ReplaceZ("Z") == "+00:00" + ReplaceZ([]);
  }

  /** Canonical date text followed by an accepted remainder is accepted. */
  lemma AcceptsCanonicalAndRest(date: string, rest: string)
    requires IsCanonicalDate(date) && IsDateRest(rest)
    ensures IsoAccepts(date + rest)
  {
    assert (date + rest)[..10] == date && (date + rest)[10..] == rest;
  }

  lemma AcceptedKeepsPrefix(s: string, x: string)
    requires IsoAccepts(ReplaceZ(s)) && |s| >= 10 && s[..10] == x
    ensures FormatDate(s) == x
  {
  }

  /** A valid date followed by an accepted remainder is accepted. */
  lemma AcceptsDateAndRest(d: Date, rest: string)
    requires IsValid(d) && IsDateRest(rest)
    ensures IsoAccepts(IsoDate(d) + rest)
    ensures (IsoDate(d) + rest)[..10] == IsoDate(d)
  {
    DateTextRoundTrip(d);
    assert (IsoDate(d) + rest)[..10] == IsoDate(d);
    assert (IsoDate(d) + rest)[10..] == rest;
  }

  lemma {:induction false} ReplaceZAppend(a: string, b: string)
    ensures ReplaceZ(a + b) == ReplaceZ(a) + ReplaceZ(b)
  {
    if a != [] {
      var h := if a[0] == 'Z' then "+00:00" else [a[0]];
      var c := a + b;
      assert c[0] == a[0] && c[1..] == a[1..] + b;
      assert ReplaceZ(c) == h + ReplaceZ(a[1..] + b);
      ReplaceZAppend(a[1..], b);
      var x, y := ReplaceZ(a[1..]), ReplaceZ(b);
      assert ReplaceZ(a) == h + x;
      assert h + (x + y) == (h + x) + y;
    } else {
      assert a + b == b;
    }
  }

  /** Text that does not start with a digit (Twitter's own `created_at` form, for one) is
      returned unchanged. A leading `Z` is rewritten to `+`, which is no digit either. */
  lemma FormatDateKeepsNonDigitStart(s: string)
    requires s == [] || !IsDigit(s[0])
    ensures FormatDate(s) == s
  {
    if s != [] {
      var t := ReplaceZ(s);
      var c := if s[0] == 'Z' then '+' else s[0];
      assert t == (if s[0] == 'Z' then "+00:00" else [s[0]]) + ReplaceZ(s[1..]);
      assert t[0] == c && !IsDigit(c);
      if |t| >= 10 {
        assert t[..10][..4][0] == c;
      }
    }
  }

  lemma ArchiveTimestampKept()
    ensures FormatDate("Wed Oct 10 20:19:24 +0000 2018") == "Wed Oct 10 20:19:24 +0000 2018"
  {
    FormatDateKeepsNonDigitStart("Wed Oct 10 20:19:24 +0000 2018");
  }

  /** Well-formed `DDDD-DD-DD` text naming no calendar date (29 February of a common year,
      month 13, year 0) is returned unchanged, whatever follows it. */
  lemma FormatDateKeepsImpossibleDate(c: string, rest: string)
    requires IsDateText(c) && !IsValid(DateOfText(c))
    ensures FormatDate(c + rest) == c + rest
  {
    var s := c + rest;
    var k := ReplaceZ(s);
    DateTextHasNoPlusOrZ(c);
    ReplaceZRemovesZ(c);
    ReplaceZAppend(c, rest);
    assert k[..10] == c;
  }

  lemma ImpossibleDateFacts(c: string)
    requires c == "2023-02-29"
    ensures IsDateText(c) && DateOfText(c) == Date(2023, 2, 29) && !IsValid(Date(2023, 2, 29))
  {
    assert AllDigits(c[..4]) && AllDigits(c[5..7]) && AllDigits(c[8..]);
    DigitsValue4(c[..4]);
    DigitsValue2(c[5..7]);
    DigitsValue2(c[8..]);
  }

  lemma LeapDayOfCommonYearKept()
    ensures FormatDate("2023-02-29") == "2023-02-29"
  {
    ImpossibleDateFacts("2023-02-29");
    FormatDateKeepsImpossibleDate("2023-02-29", "");
    assert "2023-02-29" + "" == "2023-02-29";
  }
}

=== FILE: markdown.dfy ===
/** `create_markdown`: the Markdown note for one tweet.

    The note is a YAML front-matter block (`---`, the front-matter lines, the fixed
    `tags:` list with `Twitter`, `---`, a blank line) followed by the body lines, each list
    joined with newlines. Which lines appear is decided by the global `properties` mapping
    of the configuration, passed here as a `Toggles` record.
 */
module Markdown {
  import opened Results
  import opened Values
  import opened Text

  /** The truthiness of `properties.get('retweeted', False)` and of
      `properties.get('in_reply_to_user_id', False)`. */
  datatype Toggles = Toggles(retweeted: bool, inReplyToUserId: bool)

  const NoToggles := Toggles(false, false)

  /** The closing part of the front matter. */
  const TagsBlock := "\ntags:\n - Twitter\n---\n\n"

  /** `"---\n" + "\n".join(front) + TAGS + "\n".join(content)`. */
  function Assemble(front: seq<string>, content: seq<string>): string {
    "---\n" + Join(front, "\n") + TagsBlock + Join(content, "\n")
  }

  lemma AssembleEmpty()
    ensures Assemble([], []) == "---\n\ntags:\n - Twitter\n---\n\n"
  {
    assert Join([], "\n") == "";
  }

  lemma AssembleSingle(a: string, b: string)
    ensures Assemble([a], [b]) == "---\n" + a + TagsBlock + b
  {
    assert Join([a], "\n") == a;
    assert Join([b], "\n") == b;
  }

  /** The entry `key` of `t1` and of `t2` is the same, or missing from both. */
  predicate SameEntry(t1: Tweet, t2: Tweet, key: string) {
    (key in t1 <==> key in t2) && (key in t1 ==> t1[key] == t2[key])
  }

  /** The name a reply line shows: `tweet.get('reply_to_screen_name', 'Unknown user name')`. */
  function ReplyName(tweet: Tweet): string {
    PyStr(Get(tweet, "reply_to_screen_name", Str("Unknown user name")))
  }

  /** The note of a reply to `n` with only the reply section switched on: one
      front-matter line and one body line, each naming `n`. */
  function ReplyNote(n: string): (r: string)
    ensures |r| == 2 * |n| + 61
  {
    "---\nReplying to: \"" + n + "\"" + TagsBlock + "**Replying to:** [" + n + "]"
  }

  /** `create_markdown(tweet)` as written. The `retweeted` branch prints a variable that is
      never bound (the value is stored in `name`), so it always raises `NameError`; the
      reply branch reads `in_reply_to_user_id` into a variable it never uses and shows the
      entry under `reply_to_screen_name`. */
  function CreateMarkdown(tweet: Tweet, toggles: Toggles): (r: Result<string>)
    ensures r.Err? <==> toggles.retweeted
    ensures r.Err? ==> r.error == NameError("retweeted")
  {
    if toggles.retweeted then Err(NameError("retweeted"))
    else if toggles.inReplyToUserId then
      var n := ReplyName(tweet);
      Ok(Assemble(["Replying to: \"" + n + "\""], ["**Replying to:** [" + n + "]"]))
    else Ok(Assemble([], []))
  }

  /** With no section switched on, every tweet gives the same bare envelope. */
  lemma NoTogglesGivesEnvelope(tweet: Tweet)
    ensures CreateMarkdown(tweet, NoToggles) == Ok("---\n\ntags:\n - Twitter\n---\n\n")
  {
    AssembleEmpty();
  }

  /** The reply section adds exactly one front-matter line and one body line, both naming
      the `reply_to_screen_name` entry, or `Unknown user name` when it is missing. */
  lemma ReplySection(tweet: Tweet)
    ensures CreateMarkdown(tweet, Toggles(false, true)) == Ok(ReplyNote(ReplyName(tweet)))
    ensures "reply_to_screen_name" !in tweet ==> ReplyName(tweet) == "Unknown user name"
    ensures "reply_to_screen_name" in tweet ==> ReplyName(tweet) == PyStr(tweet["reply_to_screen_name"])
  {
    ReplyNoteAssembled(ReplyName(tweet));
  }

  /** The reply note is the envelope around the two reply lines. */
  lemma ReplyNoteAssembled(n: string)
    ensures Assemble(["Replying to: \"" + n + "\""], ["**Replying to:** [" + n + "]"]) == ReplyNote(n)
  {
    var a, b := "Replying to: \"" + n + "\"", "**Replying to:** [" + n + "]";
    AssembleSingle(a, b);
    var p := "---\nReplying to: \"";
    assert "---\n" + a == p + n + "\"";
    assert "---\n" + a + TagsBlock + b == p + n + "\"" + TagsBlock + b;
  }

  /** Distinct names give distinct reply notes when their lengths differ. */
  lemma ReplyNotesDiffer(n1: string, n2: string)
    requires |n1| != |n2|
    ensures ReplyNote(n1) != ReplyNote(n2)
  {
  }

  /** The note depends on the tweet only through its `reply_to_screen_name` entry: the
      id, the text, the reply-to user id and every other key are ignored. */
  lemma OnlyReplyNameMatters(t1: Tweet, t2: Tweet, toggles: Toggles)
    requires SameEntry(t1, t2, "reply_to_screen_name")
    ensures CreateMarkdown(t1, toggles) == CreateMarkdown(t2, toggles)
  {
    assert ReplyName(t1) == ReplyName(t2);
  }

  /** A tweet whose archive entry names the replied-to account under
      `in_reply_to_screen_name` is shown as a reply to an unknown user. */
  lemma ArchiveReplyNameIgnored()
    ensures CreateMarkdown(map["in_reply_to_screen_name" := Str("alice")], Toggles(false, true))
            == Ok(ReplyNote("Unknown user name"))
  {
    var t := map["in_reply_to_screen_name" := Str("alice")];
    ReplySection(t);
    assert ReplyName(t) == "Unknown user name";
  }

  /** The evidently intended `create_markdown`: the retweeted flag is shown (front matter
      `retweeted: <value>`, body `**Retweeted:** <mark>`), and the reply name is read from
      `in_reply_to_screen_name`, the key the archive uses. */
  function CreateMarkdownIntended(tweet: Tweet, toggles: Toggles): string {
    var rt := Get(tweet, "retweeted", Bool(false));
    var n := PyStr(Get(tweet, "in_reply_to_screen_name", Str("Unknown user name")));
    var front := (if toggles.retweeted then ["retweeted: " + PyStr(rt)] else [])
                 + (if toggles.inReplyToUserId then ["Replying to: \"" + n + "\""] else []);
    var content := (if toggles.retweeted then ["**Retweeted:** " + FormatBool(rt)] else [])
                   + (if toggles.inReplyToUserId then ["**Replying to:** [" + n + "]"] else []);
    Assemble(front, content)
  }

  /** Where the source does not fail and the two name keys agree, the corrected note is the
      note the source writes. */
  lemma IntendedAgreesWhereSourceWorks(tweet: Tweet, toggles: Toggles)
    requires !toggles.retweeted
    requires ("reply_to_screen_name" in tweet <==> "in_reply_to_screen_name" in tweet)
    requires "reply_to_screen_name" in tweet ==> tweet["reply_to_screen_name"] == tweet["in_reply_to_screen_name"]
    ensures CreateMarkdown(tweet, toggles) == Ok(CreateMarkdownIntended(tweet, toggles))
  {
  }

  /** The corrected note shows the retweeted flag in both places. */
  lemma IntendedShowsRetweeted(tweet: Tweet)
    ensures CreateMarkdownIntended(tweet, Toggles(true, false))
            == "---\nretweeted: " + PyStr(Get(tweet, "retweeted", Bool(false))) + TagsBlock
               + "**Retweeted:** " + FormatBool(Get(tweet, "retweeted", Bool(false)))
  {
    var rt := Get(tweet, "retweeted", Bool(false));
    var a, b := "retweeted: " + PyStr(rt), "**Retweeted:** " + FormatBool(rt);
    assert [a] + [] == [a] && [b] + [] == [b];
    AssembleSingle(a, b);
    assert "---\n" + a == "---\nretweeted: " + PyStr(rt);
    assert "---\n" + a + TagsBlock + b
        == "---\nretweeted: " + PyStr(rt) + TagsBlock + "**Retweeted:** " + FormatBool(rt);
  }

  /** The discrepancy on a retweet: the source raises where the corrected note reads
      `retweeted: True`. */
  lemma RetweetDiscrepancy()
    ensures CreateMarkdown(map["retweeted" := Bool(true)], Toggles(true, false)) == Err(NameError("retweeted"))
    ensures CreateMarkdownIntended(map["retweeted" := Bool(true)], Toggles(true, false))
            == "---\nretweeted: True" + TagsBlock + "**Retweeted:** ✓"
  {
    IntendedShowsRetweeted(map["retweeted" := Bool(true)]);
  }

  /** With only the reply section switched on, the corrected note names the
      `in_reply_to_screen_name` entry. */
  lemma IntendedReplySection(tweet: Tweet)
    ensures CreateMarkdownIntended(tweet, Toggles(false, true))
            == ReplyNote(PyStr(Get(tweet, "in_reply_to_screen_name", Str("Unknown user name"))))
  {
    var n := PyStr(Get(tweet, "in_reply_to_screen_name", Str("Unknown user name")));
    var a, b := "Replying to: \"" + n + "\"", "**Replying to:** [" + n + "]";
    assert [] + [a] == [a] && [] + [b] == [b];
    ReplyNoteAssembled(n);
  }

  /** The discrepancy on a reply: the archive's reply name reaches the corrected note
      only. */
  lemma ReplyNameDiscrepancy()
    ensures CreateMarkdownIntended(map["in_reply_to_screen_name" := Str("alice")], Toggles(false, true))
            == ReplyNote("alice")
    ensures CreateMarkdown(map["in_reply_to_screen_name" := Str("alice")], Toggles(false, true))
            != Ok(CreateMarkdownIntended(map["in_reply_to_screen_name" := Str("alice")], Toggles(false, true)))
  {
    var t := map["in_reply_to_screen_name" := Str("alice")];
    IntendedReplySection(t);
    assert PyStr(Get(t, "in_reply_to_screen_name", Str("Unknown user name"))) == "alice";
    ArchiveReplyNameIgnored();
    ReplyNotesDiffer("alice", "Unknown user name");
  }
}

=== FILE: results.dfy ===
/** The Python exceptions the modelled helpers raise, and the result types that carry them.

    Every helper of the importer either returns a value or raises; a raise becomes `Err`
    here so that callers (and lemmas) can see the error path instead of having it ruled
    out by a precondition.
 */
module Results {

  /** Why `datetime.strptime` / `datetime.fromisoformat` refused a date string. */
  datatype DateProblem =
    | FormatMismatch   // the text does not match the directive pattern at all
    | UnconvertedData  // the pattern matched a proper prefix; text is left over
    | OutOfRange       // the fields are well formed but name no calendar date

  /** The exception classes that can escape the modelled code. */
  datatype PyError =
    | ValueError(problem: DateProblem)
    | NameError(name: string)
    | TypeError(what: string)

  /** A regex match that may fail: `None` where the pattern does not match. */
  datatype Option<+T> = None | Some(value: T)

  /** A value, or the exception raised instead of returning one. */
  datatype Result<+T> = Ok(value: T) | Err(error: PyError) {

    predicate IsFailure() {
      Err?
    }

    function PropagateFailure<U>(): Result<U>
      requires Err?
    {
      Err(error)
    }

    function Extract(): T
      requires Ok?
    {
      value
    }
  }
}

=== FILE: strip.dfy ===
/** The archive header strip: `file_content.strip('window.YTD.tweets.part0 = ')`.

    `str.strip(chars)` treats its argument as a set of characters and removes every
    leading and trailing character from that set; it does not remove the text as a
    prefix. The archive's JSON therefore survives intact when it begins and ends with a
    character outside the set (`[` and `]`), and loses characters otherwise.
 */
module Strip {

  /** Every character of `s` is in `cs`. */
  predicate AllIn(s: string, cs: set<char>) {
    forall i :: 0 <= i < |s| ==> s[i] in cs
  }

  /** `s.lstrip(chars)`. */
  function LStripChars(s: string, cs: set<char>): string {
    if s != [] && s[0] in cs then LStripChars(s[1..], cs) else s
  }

  /** `s.rstrip(chars)`. */
  function RStripChars(s: string, cs: set<char>): string {
    if s != [] && s[|s| - 1] in cs then RStripChars(s[..|s| - 1], cs) else s
  }

  /** Left-stripping removes a leading run of characters from `cs` and keeps the rest: a
      suffix that does not start with one. */
  lemma {:induction false} LStripSpec(s: string, cs: set<char>)
    ensures var r := LStripChars(s, cs);
            && |r| <= |s| && r == s[|s| - |r|..]
            && AllIn(s[..|s| - |r|], cs)
            && (r == [] || r[0] !in cs)
    decreases |s|
  {
    if s != [] && s[0] in cs {
      var r := LStripChars(s[1..], cs);
      LStripSpec(s[1..], cs);
      var n := |s| - |r|;
      assert s[1..][|s| - 1 - |r|..] == s[n..];
      forall k | 0 <= k < n
        ensures s[..n][k] in cs
      {
        if k > 0 {
          assert s[..n][k] == s[1..][..n - 1][k - 1];
        }
      }
    } else {
      assert s[..0] == [];
    }
  }

  /** Right-stripping removes a trailing run of characters from `cs` and keeps the rest: a
      prefix that does not end with one. */
  lemma {:induction false} RStripSpec(s: string, cs: set<char>)
    ensures var r := RStripChars(s, cs);
            && |r| <= |s| && r == s[..|r|]
            && AllIn(s[|r|..], cs)
            && (r == [] || r[|r| - 1] !in cs)
    decreases |s|
  {
    if s != [] && s[|s| - 1] in cs {
      var m := s[..|s| - 1];
      var r := RStripChars(m, cs);
      RStripSpec(m, cs);
      assert m[..|r|] == s[..|r|];
      forall k | 0 <= k < |s| - |r|
        ensures s[|r|..][k] in cs
      {
        if k < |s| - 1 - |r| {
          assert s[|r|..][k] == m[|r|..][k];
        }
      }
    } else {
      assert s[|s|..] == [];
    }
  }

  /** `s.strip(chars)`. */
  function StripChars(s: string, cs: set<char>): string {
    RStripChars(LStripChars(s, cs), cs)
  }

  /** The result is the part of `s` between two runs of characters from `cs`, and it
      neither starts nor ends with one. */
  lemma StripBounds(s: string, cs: set<char>) returns (i: nat, j: nat)
    ensures i <= j <= |s| && StripChars(s, cs) == s[i..j]
    ensures AllIn(s[..i], cs) && AllIn(s[j..], cs)
    ensures i < j ==> s[i] !in cs && s[j - 1] !in cs
  {
    var l := LStripChars(s, cs);
    var r := RStripChars(l, cs);
    LStripSpec(s, cs);
    RStripSpec(l, cs);
    i := |s| - |l|;
    j := i + |r|;
    assert l == s[i..];
    assert r == s[i..j];
    assert s[j..] == l[|r|..];
    if i < j {
      assert s[i] == r[0];
      assert s[j - 1] == r[|r| - 1];
    }
  }

  lemma AllInSlice(s: string, cs: set<char>, a: nat, b: nat)
    requires a <= b <= |s| && AllIn(s, cs)
    ensures AllIn(s[a..b], cs)
  {
    forall k | 0 <= k < b - a
      ensures s[a..b][k] in cs
    {
      assert s[a..b][k] == s[a + k];
    }
  }

  /** Conversely, `s[i..j]` with exactly these properties is the result: the stripped
      part is determined by where the runs from `cs` end. */
  lemma StripUnique(s: string, cs: set<char>, i: nat, j: nat)
    requires i <= j <= |s|
    requires AllIn(s[..i], cs) && AllIn(s[j..], cs)
    requires i < j ==> s[i] !in cs && s[j - 1] !in cs
    ensures StripChars(s, cs) == s[i..j]
  {
    LStripFrom(s, cs, i, j);
    if i < j {
      RStripOfSuffix(s, cs, i, j);
    } else {
      assert RStripChars([], cs) == [];
    }
  }

  /** Right-stripping `s[i..]` stops at `j` when `s[j..]` is all from `cs` and `s[j - 1]`
      is not. */
  lemma RStripOfSuffix(s: string, cs: set<char>, i: nat, j: nat)
    requires i < j <= |s| && AllIn(s[j..], cs) && s[j - 1] !in cs
    ensures RStripChars(s[i..], cs) == s[i..j]
  {
    var l := s[i..];
    assert l[j - i..] == s[j..];
    assert l[j - i - 1] == s[j - 1];
    RStripFrom(l, cs, j - i);
    assert l[..j - i] == s[i..j];
  }

  lemma {:induction false} LStripFrom(s: string, cs: set<char>, i: nat, j: nat)
    requires i <= j <= |s|
    requires AllIn(s[..i], cs) && AllIn(s[j..], cs)
    requires i < j ==> s[i] !in cs
    ensures i < j ==> LStripChars(s, cs) == s[i..]
    ensures i == j ==> LStripChars(s, cs) == []
    decreases |s|
  {
    var t := if s == [] then [] else s[1..];
    if i > 0 {
      assert s[..i][0] == s[0];
      AllInSlice(s[..i], cs, 1, i);
      assert s[..i][1..i] == t[..i - 1];
      assert t[j - 1..] == s[j..];
      LStripFrom(t, cs, i - 1, j - 1);
      assert t[i - 1..] == s[i..];
    } else if i == j && s != [] {
      assert s[j..][0] == s[0];
      AllInSlice(s[j..], cs, 1, |s|);
      assert s[j..][1..|s|] == t[0..];
      assert t[..0] == [];
      LStripFrom(t, cs, 0, 0);
    }
  }

  lemma {:induction false} RStripFrom(l: string, cs: set<char>, j: nat)
    requires j <= |l| && AllIn(l[j..], cs)
    requires j > 0 ==> l[j - 1] !in cs
    ensures RStripChars(l, cs) == l[..j]
    decreases |l|
  {
    if l == [] {
    } else if l[|l| - 1] in cs {
      var m := l[..|l| - 1];
      AllInSlice(l[j..], cs, 0, |l| - 1 - j);
      assert l[j..][0..|l| - 1 - j] == m[j..];
      RStripFrom(m, cs, j);
      assert m[..j] == l[..j];
    } else {
      assert l[..|l|] == l;
    }
  }

  /** Stripping twice is stripping once. */
  lemma StripIdempotent(s: string, cs: set<char>)
    ensures StripChars(StripChars(s, cs), cs) == StripChars(s, cs)
  {
    var i, j := StripBounds(s, cs);
    var t := StripChars(s, cs);
    assert t[..0] == [] && t[|t|..] == [];
    if t != [] {
      assert t[0] == s[i] && t[|t| - 1] == s[j - 1];
    }
    StripUnique(t, cs, 0, |t|);
    assert t[0..|t|] == t;
  }

  /** The header text the archive prepends to its JSON. */
  const Header := "window.YTD.tweets.part0 = "

  /** The characters of `Header`, as a set: `strip` reads its argument this way. */
  const HeaderChars: set<char> := set c | c in Header

  /** The strip removes exactly these eighteen characters. */
  lemma HeaderCharsAreHeader()
    ensures HeaderChars
            == {'w', 'i', 'n', 'd', 'o', '.', 'Y', 'T', 'D', 't', 'e', 's', 'p', 'a', 'r', '0', ' ', '='}
  {
  }

  /** The archive file, the header (or any text made of its characters) followed by a JSON
      body that starts and ends outside the set, strips to exactly the body. */
  lemma StripArchiveHeader(header: string, body: string)
    requires AllIn(header, HeaderChars)
    requires body != [] && body[0] !in HeaderChars && body[|body| - 1] !in HeaderChars
    ensures StripChars(header + body, HeaderChars) == body
  {
    var s := header + body;
    assert s[..|header|] == header;
    assert s[|s|..] == [];
    StripUnique(s, HeaderChars, |header|, |s|);
    assert s[|header|..|s|] == body;
  }

  /** The strip removes characters, not the header text: a body ending in a header
      character (here a bare `0`) loses it. */
  lemma StripTakesTrailingDigit(s: string)
    requires s == "[1,2]0"
    ensures StripChars(s, HeaderChars) == "[1,2]"
  {
    assert '0' in HeaderChars && '[' !in HeaderChars && ']' !in HeaderChars;
    assert s[..0] == [] && s[5..] == "0";
    StripUnique(s, HeaderChars, 0, 5);
    assert s[0..5] == "[1,2]";
  }

  /** Any text made only of header characters, in any order, strips to nothing. */
  lemma StripHeaderCharsOnly(s: string)
    requires AllIn(s, HeaderChars)
    ensures StripChars(s, HeaderChars) == []
  {
    assert s[..0] == [] && s[0..] == s;
    StripUnique(s, HeaderChars, 0, 0);
  }
}

=== FILE: strptime.dfy ===
/** `datetime.strptime(s, '%Y-%m-%d')`.

    CPython compiles the format into a regular expression whose directives are
      %Y = `\d\d\d\d`,  %m = `1[0-2]|0[1-9]|[1-9]`,  %d = `3[01]|[12]\d|0[1-9]|[1-9]| [1-9]`
    (alternatives tried left to right), matches it at the start of the string, raises
    `ValueError` ("does not match format") when there is no match and ("unconverted data
    remains") when the match stops short of the end, and finally builds a `date`, which
    raises `ValueError` for a day that does not exist (including year 0).

    `ParseYmd` follows that procedure; `ParseSound` and `ParseComplete` show that it accepts
    exactly the spellings of valid dates the three directives allow.
 */
module Strptime {
  import opened Chars
  import opened Results
  import opened Calendar

  /** One directive's match: how many characters it consumed and the number it read. */
  datatype Token = Token(len: nat, value: int)

  predicate IsNonZeroDigit(c: char) {
    '1' <= c <= '9'
  }

  /** `%m`: the first of `1[0-2]`, `0[1-9]`, `[1-9]` that matches at the start of `t`. */
  function MatchMonth(t: string): (r: Option<Token>)
    ensures r.Some? ==> 1 <= r.value.len <= 2 && r.value.len <= |t|
    ensures r.Some? ==> 1 <= r.value.value <= 12
  {
    if |t| >= 2 && t[0] == '1' && '0' <= t[1] <= '2' then Some(Token(2, 10 + DigitValue(t[1])))
    else if |t| >= 2 && t[0] == '0' && IsNonZeroDigit(t[1]) then Some(Token(2, DigitValue(t[1])))
    else if |t| >= 1 && IsNonZeroDigit(t[0]) then Some(Token(1, DigitValue(t[0])))
    else None
  }

  /** `%d`: the first of `3[01]`, `[12]\d`, `0[1-9]`, `[1-9]`, ` [1-9]` that matches at the
      start of `t`. */
  function MatchDay(t: string): (r: Option<Token>)
    ensures r.Some? ==> 1 <= r.value.len <= 2 && r.value.len <= |t|
    ensures r.Some? ==> 1 <= r.value.value <= 31
  {
    if |t| >= 2 && t[0] == '3' && '0' <= t[1] <= '1' then Some(Token(2, 30 + DigitValue(t[1])))
    else if |t| >= 2 && '1' <= t[0] <= '2' && IsDigit(t[1]) then Some(Token(2, 10 * DigitValue(t[0]) + DigitValue(t[1])))
    else if |t| >= 2 && t[0] == '0' && IsNonZeroDigit(t[1]) then Some(Token(2, DigitValue(t[1])))
    else if |t| >= 1 && IsNonZeroDigit(t[0]) then Some(Token(1, DigitValue(t[0])))
    else if |t| >= 2 && t[0] == ' ' && IsNonZeroDigit(t[1]) then Some(Token(2, DigitValue(t[1])))
    else None
  }

  /** `datetime.strptime(s, '%Y-%m-%d')`, keeping only the date. */
  function ParseYmd(s: string): (r: Result<Date>)
    ensures r.Ok? ==> IsValid(r.value)
    ensures r.Err? ==> r.error.ValueError?
  {
    if |s| < 5 || !AllDigits(s[..4]) || s[4] != '-' then Err(ValueError(FormatMismatch))
    else match MatchMonth(s[5..])
      case None => Err(ValueError(FormatMismatch))
      case Some(m) =>
        var i := 5 + m.len;
        if i >= |s| || s[i] != '-' then Err(ValueError(FormatMismatch))
        else match MatchDay(s[i + 1..])
          case None => Err(ValueError(FormatMismatch))
          case Some(d) =>
            if i + 1 + d.len != |s| then Err(ValueError(UnconvertedData))
            else
              var dt := Date(DigitsValue(s[..4]), m.value, d.value);
              if IsValid(dt) then Ok(dt) else Err(ValueError(OutOfRange))
  }

  /** The ways `%m` can spell month `m`: zero-padded, or a single digit below 10. */
  function MonthSpellings(m: int): set<string>
    requires 1 <= m <= 12
  {
    {Pad2(m)} + (if m < 10 then {[DigitChar(m)]} else {})
  }

  /** The ways `%d` can spell day `d`: zero-padded, or below 10 a single digit with or
      without one leading space. */
  function DaySpellings(d: int): set<string>
    requires 1 <= d <= 31
  {
    {Pad2(d)} + (if d < 10 then {[DigitChar(d)], [' ', DigitChar(d)]} else {})
  }

  /** `s` is one of the texts that `%Y-%m-%d` reads as the date `dt`. */
  ghost predicate IsSpellingOf(s: string, dt: Date)
    requires IsValid(dt)
  {
    exists ms, ds :: ms in MonthSpellings(dt.month) && ds in DaySpellings(dt.day)
                     && s == Pad4(dt.year) + "-" + ms + "-" + ds
  }

  lemma MatchMonthSpelling(t: string)
    requires MatchMonth(t).Some?
    ensures t[..MatchMonth(t).value.len] in MonthSpellings(MatchMonth(t).value.value)
  {
    var tok := MatchMonth(t).value;
    var w := t[..tok.len];
    if tok.len == 2 {
      Pad2OfDigits(w);
      DigitsValue2(w);
    } else {
      assert w == [DigitChar(tok.value)];
    }
  }

  lemma MatchDaySpelling(t: string)
    requires MatchDay(t).Some?
    ensures t[..MatchDay(t).value.len] in DaySpellings(MatchDay(t).value.value)
  {
    var tok := MatchDay(t).value;
    var w := t[..tok.len];
    if tok.len == 2 && t[0] != ' ' {
      Pad2OfDigits(w);
      DigitsValue2(w);
    } else if tok.len == 2 {
      assert w == [' ', DigitChar(tok.value)];
    } else {
      assert w == [DigitChar(tok.value)];
    }
  }

  /** Whatever the parser accepts is a spelling of the (valid) date it returns. */
  lemma ParseSound(s: string)
    requires ParseYmd(s).Ok?
    ensures IsValid(ParseYmd(s).value)
    ensures IsSpellingOf(s, ParseYmd(s).value)
  {
    var dt := ParseYmd(s).value;
    var m := MatchMonth(s[5..]).value;
    var i := 5 + m.len;
    var d := MatchDay(s[i + 1..]).value;
    MatchMonthSpelling(s[5..]);
    MatchDaySpelling(s[i + 1..]);
    Pad4OfDigits(s[..4]);
    var ms := s[5..][..m.len];
    var ds := s[i + 1..][..d.len];
    assert ms == s[5..i];
    assert ds == s[i + 1..];
    assert s == s[..4] + "-" + ms + "-" + ds;
  }

  lemma MatchMonthOfSpelling(m: int, ms: string, rest: string)
    requires 1 <= m <= 12 && ms in MonthSpellings(m)
    requires |rest| >= 1 && rest[0] == '-'
    ensures MatchMonth(ms + rest) == Some(Token(|ms|, m))
  {
    DigitsValue2(Pad2(m));
  }

  lemma MatchDayOfSpelling(d: int, ds: string)
    requires 1 <= d <= 31 && ds in DaySpellings(d)
    ensures MatchDay(ds) == Some(Token(|ds|, d))
  {
    DigitsValue2(Pad2(d));
  }

  /** The pieces of `<year>-<month>-<day>` text. */
  lemma SpellingSlices(y: string, ms: string, ds: string)
    requires |y| == 4
    ensures var s := y + "-" + ms + "-" + ds;
            && |s| >= 5 && s[..4] == y && s[4] == '-' && s[5..] == ms + ("-" + ds)
            && s[5 + |ms|] == '-' && s[5 + |ms| + 1..] == ds
  {
  }

  /** Every spelling of a valid date is accepted, and read as that date. */
  lemma ParseComplete(s: string, dt: Date)
    requires IsValid(dt) && IsSpellingOf(s, dt)
    ensures ParseYmd(s) == Ok(dt)
  {
    var ms, ds :| ms in MonthSpellings(dt.month) && ds in DaySpellings(dt.day)
                  && s == Pad4(dt.year) + "-" + ms + "-" + ds;
    ParseSpelling(dt, ms, ds);
  }

  /** One spelling, given by its month and day fields, is read as its date. */
  lemma ParseSpelling(dt: Date, ms: string, ds: string)
    requires IsValid(dt) && ms in MonthSpellings(dt.month) && ds in DaySpellings(dt.day)
    ensures ParseYmd(Pad4(dt.year) + "-" + ms + "-" + ds) == Ok(dt)
  {
    SpellingSlices(Pad4(dt.year), ms, ds);
    MatchMonthOfSpelling(dt.month, ms, "-" + ds);
    MatchDayOfSpelling(dt.day, ds);
  }

  lemma MatchDayOfPadded(d: int, tail: string)
    requires 1 <= d <= 31
    ensures MatchDay(Pad2(d) + tail) == Some(Token(2, d))
  {
    DigitsValue2(Pad2(d));
    var t := Pad2(d) + tail;
    assert t[0] == Pad2(d)[0] && t[1] == Pad2(d)[1];
  }

  /** Zero-padded fields in range: text after the day is "unconverted data", and
      otherwise the outcome is the calendar's verdict on the fields. */
  lemma ParsePadded(y: nat, m: int, d: int, tail: string)
    requires y < 10000 && 1 <= m <= 12 && 1 <= d <= 31
    ensures ParseYmd(Pad4(y) + "-" + Pad2(m) + "-" + Pad2(d) + tail)
            == if tail != [] then Err(ValueError(UnconvertedData))
               else if IsValid(Date(y, m, d)) then Ok(Date(y, m, d))
               else Err(ValueError(OutOfRange))
  {
    var ds := Pad2(d) + tail;
    assert Pad4(y) + "-" + Pad2(m) + "-" + Pad2(d) + tail == Pad4(y) + "-" + Pad2(m) + "-" + ds;
    SpellingSlices(Pad4(y), Pad2(m), ds);
    MatchMonthOfSpelling(m, Pad2(m), "-" + ds);
    MatchDayOfPadded(d, tail);
  }

  /** The canonical `YYYY-MM-DD` rendering of a date parses back to that date. */
  lemma ParseIsoDate(dt: Date)
    requires IsValid(dt)
    ensures ParseYmd(IsoDate(dt)) == Ok(dt)
  {
    assert Pad2(dt.month) in MonthSpellings(dt.month);
    assert Pad2(dt.day) in DaySpellings(dt.day);
    assert IsSpellingOf(IsoDate(dt), dt);
    ParseComplete(IsoDate(dt), dt);
  }
}

=== FILE: text.dfy ===
/** `format_string` and `format_bool`, together with the `str.split`, `str.join` and
    `str.capitalize` they are built from.
 */
module Text {
  import opened Chars
  import opened Values

  /** Where `c` first occurs in `s`. */
  function IndexOf(s: string, c: char): (i: nat)
    requires c in s
    ensures i < |s| && s[i] == c && c !in s[..i]
  {
    if s[0] == c then 0
    else
      var i := 1 + IndexOf(s[1..], c);
      assert s[..i] == [s[0]] + s[1..][..i - 1];
      i
  }

  /** `glue.join(parts)`. */
  function Join(parts: seq<string>, glue: string): string {
    if |parts| == 0 then ""
    else if |parts| == 1 then parts[0]
    else parts[0] + glue + Join(parts[1..], glue)
  }

  /** `s.split(sep)` with an explicit one-character separator: never an empty list. */
  function Split(s: string, sep: char): (r: seq<string>)
    ensures |r| >= 1
    decreases |s|
  {
    if sep !in s then [s]
    else
      var i := IndexOf(s, sep);
      [s[..i]] + Split(s[i + 1..], sep)
  }

  /** The pieces hold no separator, so an empty piece stands wherever two separators
      touch or one stands at an end. */
  lemma {:induction false} SplitPiecesHoldNoSeparator(s: string, sep: char)
    ensures forall k :: 0 <= k < |Split(s, sep)| ==> sep !in Split(s, sep)[k]
    decreases |s|
  {
    if sep in s {
      var i := IndexOf(s, sep);
      var rest := Split(s[i + 1..], sep);
      SplitPiecesHoldNoSeparator(s[i + 1..], sep);
      SplitAtFirst(s, sep);
      var r := [s[..i]] + rest;
      forall k | 0 <= k < |r|
        ensures sep !in r[k]
      {
        if k > 0 {
          assert r[k] == rest[k - 1];
        }
      }
    }
  }

  /** Joining the pieces with the separator gives the text back. */
  lemma {:induction false} SplitThenJoin(s: string, sep: char)
    ensures Join(Split(s, sep), [sep]) == s
    decreases |s|
  {
    if sep in s {
      var i := IndexOf(s, sep);
      var rest := Split(s[i + 1..], sep);
      SplitThenJoin(s[i + 1..], sep);
      SplitAtFirst(s, sep);
      var r := [s[..i]] + rest;
      assert r[0] == s[..i] && r[1..] == rest && |r| >= 2;
      assert Join(r, [sep]) == s[..i] + [sep] + Join(rest, [sep]);
      assert s == s[..i] + [sep] + s[i + 1..];
    }
  }

  /** The other round trip: splitting pieces joined by a separator none of them holds
      gives the pieces back. */
  lemma {:induction false} SplitJoin(parts: seq<string>, sep: char)
    requires |parts| >= 1
    requires forall k :: 0 <= k < |parts| ==> sep !in parts[k]
    ensures Split(Join(parts, [sep]), sep) == parts
    decreases |parts|
  {
    var s := Join(parts, [sep]);
    if |parts| > 1 {
      var p := parts[0];
      assert s == p + [sep] + Join(parts[1..], [sep]);
      assert s[|p|] == sep;
      assert s[..|p|] == p;
      assert IndexOf(s, sep) == |p|;
      assert s[|p| + 1..] == Join(parts[1..], [sep]);
      SplitJoin(parts[1..], sep);
      assert parts == [p] + parts[1..];
    }
  }

  /** `word.capitalize()`: the first character upper case, the rest lower case. */
  function Capitalize(w: string): (r: string)
    ensures |r| == |w|
  {
    if w == [] then [] else [ToUpper(w[0])] + LowerAll(w[1..])
  }

  function CapitalizeEach(ws: seq<string>): (r: seq<string>)
    ensures |r| == |ws|
    ensures forall k :: 0 <= k < |ws| ==> r[k] == Capitalize(ws[k])
  {
    if ws == [] then [] else [Capitalize(ws[0])] + CapitalizeEach(ws[1..])
  }

  /** `' '.join(word.capitalize() for word in s.split('_'))`. */
  function FormatString(s: string): string {
    Join(CapitalizeEach(Split(s, '_')), " ")
  }

  /** What `format_string` puts at position `i`, read off the input alone: a space for an
      underscore, upper case at the start of a word, lower case inside one. */
  function ExpectedChar(s: string, i: nat): char
    requires i < |s|
  {
    if s[i] == '_' then ' '
    else if i == 0 || s[i - 1] == '_' then ToUpper(s[i])
    else ToLower(s[i])
  }

  /** A string without underscores is one word, capitalised. */
  lemma FormatStringOneWord(s: string)
    requires '_' !in s
    ensures FormatString(s) == Capitalize(s)
  {
  }

  /** The split at the first underscore: the first word, capitalised, a space, and the
      rest formatted. */
  lemma FormatStringStep(s: string)
    requires '_' in s
    ensures FormatString(s) == Capitalize(s[..IndexOf(s, '_')]) + " " + FormatString(s[IndexOf(s, '_') + 1..])
  {
    var i := IndexOf(s, '_');
    SplitAtFirst(s, '_');
    JoinCapitalizedCons(s[..i], Split(s[i + 1..], '_'));
  }

  lemma SplitAtFirst(s: string, sep: char)
    requires sep in s
    ensures Split(s, sep) == [s[..IndexOf(s, sep)]] + Split(s[IndexOf(s, sep) + 1..], sep)
  {
  }

  lemma JoinCapitalizedCons(w: string, rest: seq<string>)
    requires |rest| >= 1
    ensures Join(CapitalizeEach([w] + rest), " ") == Capitalize(w) + " " + Join(CapitalizeEach(rest), " ")
  {
    var x := [w] + rest;
    assert x[0] == w && x[1..] == rest;
    var ws := [Capitalize(w)] + CapitalizeEach(rest);
    assert CapitalizeEach(x) == ws;
    assert ws[0] == Capitalize(w) && ws[1..] == CapitalizeEach(rest) && |ws| >= 2;
  }

  /** `capitalize` character by character. */
  lemma CapitalizeAt(w: string, i: nat)
    requires i < |w|
    ensures Capitalize(w)[i] == if i == 0 then ToUpper(w[0]) else ToLower(w[i])
  {
    if i > 0 {
      assert Capitalize(w)[i] == LowerAll(w[1..])[i - 1];
      assert w[1..][i - 1] == w[i];
    }
  }

  /** In a string without underscores `ExpectedChar` is its capitalisation. */
  lemma OneWordAt(s: string, i: nat)
    requires '_' !in s && i < |s|
    ensures ExpectedChar(s, i) == Capitalize(s)[i]
  {
    assert s[i] != '_';
    if i > 0 {
      assert s[i - 1] != '_';
    }
    CapitalizeAt(s, i);
  }

  lemma OneWordPointwise(s: string)
    requires '_' !in s
    ensures |FormatString(s)| == |s|
    ensures forall i :: 0 <= i < |s| ==> FormatString(s)[i] == ExpectedChar(s, i)
  {
    FormatStringOneWord(s);
    forall i | 0 <= i < |s|
      ensures Capitalize(s)[i] == ExpectedChar(s, i)
    {
      OneWordAt(s, i);
    }
  }

  /** Inside the first word of `s` (before its first underscore) `ExpectedChar` is the
      capitalisation of that word. */
  lemma FirstWordAt(s: string, k: nat, i: nat)
    requires '_' in s && k == IndexOf(s, '_') && i < k
    ensures ExpectedChar(s, i) == Capitalize(s[..k])[i]
  {
    var w := s[..k];
    assert w[i] == s[i];
    assert s[i] != '_';
    if i > 0 {
      assert w[i - 1] == s[i - 1];
    }
    CapitalizeAt(w, i);
  }

  /** After the first underscore of `s`, `ExpectedChar` is the same as on the rest. */
  lemma RestAt(s: string, k: nat, i: nat)
    requires '_' in s && k == IndexOf(s, '_') && k < i < |s|
    ensures ExpectedChar(s, i) == ExpectedChar(s[k + 1..], i - k - 1)
  {
    var t := s[k + 1..];
    assert t[i - k - 1] == s[i];
    if i - k - 1 > 0 {
      assert t[i - k - 2] == s[i - 1];
    }
  }

  /** Character by character, `format_string` is `ExpectedChar`: same length, underscores
      become spaces, every word upper case first and lower case after. */
  lemma {:induction false} FormatStringPointwise(s: string)
    ensures |FormatString(s)| == |s|
    ensures forall i :: 0 <= i < |s| ==> FormatString(s)[i] == ExpectedChar(s, i)
    decreases |s|
  {
    if '_' !in s {
      OneWordPointwise(s);
    } else {
      var k := IndexOf(s, '_');
      var t := s[k + 1..];
      FormatStringStep(s);
      FormatStringPointwise(t);
      SplitPointwise(s, k, FormatString(t));
    }
  }

  /** If the rest after the first underscore formats pointwise, so does the whole. */
  lemma SplitPointwise(s: string, k: nat, ft: string)
    requires '_' in s && k == IndexOf(s, '_')
    requires |ft| == |s| - k - 1
    requires forall i :: 0 <= i < |ft| ==> ft[i] == ExpectedChar(s[k + 1..], i)
    ensures var r := Capitalize(s[..k]) + " " + ft;
            |r| == |s| && forall i :: 0 <= i < |s| ==> r[i] == ExpectedChar(s, i)
  {
    var c := Capitalize(s[..k]);
    var r := c + " " + ft;
    forall i | 0 <= i < |s|
      ensures r[i] == ExpectedChar(s, i)
    {
      if i < k {
        FirstWordAt(s, k, i);
        assert r[i] == c[i];
      } else if i > k {
        RestAt(s, k, i);
        assert r[i] == ft[i - k - 1];
      }
    }
  }

  /** Consequently the result holds no underscore, and a string that is already one
      capitalised word is left alone. */
  lemma FormatStringNoUnderscore(s: string)
    ensures '_' !in FormatString(s)
  {
    FormatStringPointwise(s);
    var r := FormatString(s);
    forall i | 0 <= i < |r|
      ensures r[i] != '_'
    {
      assert r[i] == ExpectedChar(s, i);
    }
  }

  /** `format_string` is not idempotent: its spaces are no separators the second time, so
      `a_b` becomes `A B` and then `A b`. */
  lemma FormatStringNotIdempotent()
    ensures FormatString("a_b") == "A B"
    ensures FormatString("A B") == "A b"
  {
    FormatStringPointwise("a_b");
    FormatStringPointwise("A B");
  }

  /** `format_bool(value)`: a check mark for a truthy value, a cross otherwise. */
  function FormatBool(v: Value): (r: string)
    ensures r == "✓" || r == "✗"
    ensures r == "✓" <==> Truthy(v)
  {
    if Truthy(v) then "✓" else "✗"
  }

  /** Truthiness, not the boolean value, decides the mark: any non-empty string, even
      `"False"`, shows a check mark; zero, `None` and `""` show a cross. */
  lemma FormatBoolOfScalars(b: bool, i: int, s: string)
    ensures FormatBool(Bool(b)) == (if b then "✓" else "✗")
    ensures FormatBool(Int(i)) == "✓" <==> i != 0
    ensures FormatBool(Str(s)) == "✓" <==> s != ""
    ensures FormatBool(Str("False")) == "✓"
    ensures FormatBool(Null) == "✗"
  {
  }
}

=== FILE: values.dfy ===
/** The JSON scalars a tweet object holds, and the three Python views of them the helpers
    use: `dict.get` with a default, truthiness, and `str()` (what an f-string prints).
 */
module Values {
  import opened Chars

  /** A JSON scalar as `json.loads` returns it: `str`, `int`, `bool` or `None`. */
  datatype Value = Str(s: string) | Int(i: int) | Bool(b: bool) | Null

  /** One tweet object of the archive: key to value. */
  type Tweet = map<string, Value>

  /** `tweet.get(key, default)`. */
  function Get(tweet: Tweet, key: string, default: Value): Value {
    if key in tweet then tweet[key] else default
  }

  /** Python truthiness: the empty string, zero, `False` and `None` are false. */
  predicate Truthy(v: Value) {
    match v
    case Str(s) => s != ""
    case Int(i) => i != 0
    case Bool(b) => b
    case Null => false
  }

  /** `str(v)`, which is what `f"{v}"` inserts. */
  function PyStr(v: Value): string {
    match v
    case Str(s) => s
    case Int(i) => IntToString(i)
    case Bool(b) => if b then "True" else "False"
    case Null => "None"
  }
}
